=== FILE: README.md ===
# In-process PHP HTTP router, modelled in Dafny

The repository contains two versions of one small HTTP routing engine. This project
models and proves properties of both.

- **`Router.php`**, the Express-style router. Routes are declared through static
  calls named after HTTP methods (`Router::get('/user/:name', cb...)`). Prefix groups
  are declared with `Router::use(prefix, body...)`. A body is registered only when its
  prefix occurs in the request path. Dispatch runs the callback chain of the first
  route whose method and whole `:name` template match the request. The chain stops
  at the first falsy result. When nothing matches, the response is 404.
- **`Route.php`**, the group/middleware/status router. It has GET and POST routes
  with `<name>` placeholders. Groups extend a namespace prefix while their body
  runs. Middleware is scoped to the url of the declaration just before it, and
  there is a table of status handlers. Dispatch loads the first matching route if
  its middleware grants access. Otherwise it ends with `handleStatus(403)`, with a
  middleware's own code, or with `handleStatus(404)`.

Layout:

- `options.dfy` holds `Option` and `Result`.
- `pattern.dfy` holds what both routers share. That covers template compilation
  (`:name` and `<name>`), the backtracking matcher of the compiled regular
  expression, and the request path (the text before `?`). It also covers parameter
  binding as `array_combine` does it, and the unanchored, case-insensitive search of
  `isUrlMatch`.
- `class_ref.dfy` splits `"path/Class@method"` handler references.
- `express_router.dfy` models `Router.php` as a class `Router`.
- `group_router.dfy` models `Route.php` as a class `Route`.

Each class keeps the source's static state as fields. The routes and middleware
are `seq` fields and the status table is a `map`; the namespace and prefix are
strings. Its methods update these fields as the PHP methods do. Every method is
proved against a pure specification function over a `Tables` value (`DeclTables`,
`ChainTables`, `AccessRun`, `Dispatch`, ...), and the properties are proved as
lemmas about those functions.

Callbacks are data. A closure is modelled as the script of declarations it performs
when called (so group bodies really declare routes), followed by its return value:
its truthiness in `Router.php`, and whether it is exactly `false` in `Route.php`. A
string callback is a class reference. A `Route.php` boolean returns itself.
Anything else raises the source's "cannot call" exception. The request (method, URI,
and the query/body/file parameters in `Route.php`) is a constant of each router
object, as the host hands it over.

## Model

| member | source | states |
|---|---|---|
| Pattern.WordRun | Router.php:101 | the length of the longest run of `[a-zA-Z0-9_]` at the start of a string: all word characters, and the next character (if any) is not one |
| Pattern.WordRunIs | Router.php:101 | a run of word characters followed by the end or a non-word character is the longest run, so it is what `[a-zA-Z0-9_]+` takes |
| Pattern.WordPrefixWithinRun | Router.php:101 | any prefix made of word characters is no longer than the longest run |
| Pattern.CompileColonRoundTrip | Router.php:101-104 | compiling a `:name` template loses nothing: writing the tokens back (`:` + name for each placeholder) gives the template |
| Pattern.CompileColonShape | Router.php:101-104 | every compiled `:name` placeholder is a non-empty word run, and no placeholder is followed by a literal word character, because the name takes the whole run as the greedy `+` does |
| Pattern.CompileColonNamesAll | Router.php:101-104 | for every template, a literal `:` is never followed by a literal word character: every `:name` becomes a placeholder |
| Pattern.CompileAngleRoundTrip | Route.php:144-147 | compiling a `<name>` template loses nothing: writing the tokens back gives the template |
| Pattern.CompileAngleWellNamed | Route.php:144-147 | every compiled `<name>` placeholder is a non-empty word run |
| Pattern.AngleLitRun | Route.php:144-147 | the word run at the start of a template compiles to as many literal word characters, followed by a literal `>` exactly where the template has `>` |
| Pattern.CompileAngleNamesAll | Route.php:144-147 | for every template, no literal `<`, word characters and `>` remain in a row: every `<name>` becomes a placeholder |
| Pattern.SpellsArity | Router.php:102-107 | a match has exactly one capture per placeholder name, in template order, and each capture is a non-empty word run |
| Pattern.MatchSound | Router.php:105 | whatever the backtracking matcher returns spells the path: literals equal the path's characters, captures are word runs taken at their placeholders' places, and an anchored match reaches the end |
| Pattern.TryCapturesSound | Router.php:104-105 | a capture tried for a placeholder is a non-empty word prefix of the text, and the rest of the template spells what follows it |
| Pattern.MatchComplete | Router.php:105 | whenever some captures spell the path, the matcher finds a match (backtracking over shorter captures misses nothing) |
| Pattern.TryCapturesComplete | Router.php:104-105 | trying captures from the longest word run downwards reaches any capture length that works |
| Pattern.MatchUnique | Route.php:148 | when each placeholder is followed by the end or by a non-word literal, the anchored match returns exactly the captures that spell the path; they are the only ones |
| Pattern.UrlMatchSound | Router.php:39-45 | a successful `#template#i` search has a start position and captures with which the template spells a piece of the path, ignoring ASCII case |
| Pattern.UrlMatchComplete | Router.php:39-45 | any piece of the path that the template spells, ignoring case, makes the search succeed |
| Pattern.OccursFromWitness | Router.php:45 | the unanchored search that succeeds from a position matches at a start position at or after the given one |
| Pattern.OccursFromAt | Router.php:45 | a match at some start position makes the unanchored search from any earlier position succeed |
| Pattern.PathOf | Router.php:99 | the request path is the longest prefix of the URI without `?`; it stops exactly at the first `?` |
| Pattern.PathOfQuery | Route.php:142 | the path of `a?b` is `a` when `a` has no `?` |
| Pattern.PathOfPlain | Route.php:142 | a URI without `?` is its own path |
| Pattern.Bind | Router.php:107 | `array_combine(names, captures)` binds exactly the placeholder names |
| Pattern.BindLastWins | Route.php:150 | a name bound twice keeps the capture at its last occurrence |
| Pattern.MatchLitsPrefix | Router.php:105 | literal template text at the start of the path is matched character by character, and the rest of the template is then matched against what follows |
| Pattern.MatchLitsMismatch | Router.php:105 | case-sensitively, a template that starts with literal text the path does not start with fails to match |
| Pattern.MatchLitsExact | Router.php:105 | a template of literal text only matches, anchored and case-sensitively, exactly that text |
| Pattern.MatchLastParam | Router.php:104-105 | a final placeholder captures the whole remaining word |
| Pattern.NamesLits | Router.php:102-103 | literal template text adds no placeholder names, so only placeholders become `$indexes` |
| Pattern.CompileColonLiteralPrefix | Router.php:104 | text without `:` compiles to its literal characters |
| Pattern.CompileColonPlaceholder | Router.php:104 | `:name` followed by a non-word character compiles to one placeholder |
| Pattern.CompileAngleLiteralPrefix | Route.php:147 | text without `<` compiles to its literal characters |
| Pattern.CompileAnglePlaceholder | Route.php:147 | `<name>` compiles to one placeholder |
| ClassRef.Parse | Router.php:68-82 | a reference loads iff it contains `@` at a position greater than 0; the file is the text before the first `@` plus `.php`, the class its last `/`-piece, the method the text between the first and the second `@` |
| ClassRef.LastPiece | Router.php:79-80 | the last `/`-separated piece: a suffix without `/`, preceded by `/` unless it is the whole string |
| ClassRef.IndexOf | Route.php:41 | the position of the first occurrence of a character, or the length when there is none |
| ClassRef.ParseCompose | Route.php:41-52 | writing `path@method` and splitting it gives back `path.php`, the last piece of `path` and `method` |
| ExpressRouter.Router.CallStatic | Router.php:8-15 | a call named in `METHODS` appends exactly one route whose url is the current prefix followed by the given url; any other name registers nothing; the prefix is unchanged |
| ExpressRouter.Router.AddRoute | Router.php:17-24 | appends one route with url prefix + url; earlier routes and the prefix are unchanged |
| ExpressRouter.Router.Use | Router.php:26-37 | when the prefix does not occur in the request path nothing happens; otherwise the prefix is appended, the body chain runs and the trailing copy is removed, so the prefix is back whenever the body raises nothing |
| ExpressRouter.Router.Call | Router.php:48-66 | invokes the chain in order, stopping after the first falsy result or at the first exception, as `ChainVerdict` and `ChainTables` say |
| ExpressRouter.Router.Invoke | Router.php:54-60 | a closure runs its declarations; a string goes through `loadClass` and raises when it cannot be split; anything else raises |
| ExpressRouter.Router.RunBody | index.php:5-13 | a closure body performs its declarations in order until one raises |
| ExpressRouter.Router.Declare | Router.php:8-37 | a declaration is a static method call or a `use` group |
| ExpressRouter.Router.FindRoute | Router.php:95-107 | the search returns the first route, in registration order, whose upper-cased method is the request method and whose whole template matches the path |
| ExpressRouter.Router.Run | Router.php:91-114 | exactly one terminal action: the chain of the first matching route with its bound parameters, or 404 |
| ExpressRouter.FirstMatch | Router.php:100-110 | the route found matches and binds the parameters given, every earlier route fails to match, and "none" means no route matches |
| ExpressRouter.StripSuffixAppend | Router.php:33 | removing a trailing copy of what was just appended gives the prefix back |
| ExpressRouter.ChainStopsAtFirstFalsy | Router.php:53-63 | a chain that ends normally invoked callbacks in order: all but the last returned truthy, and it stopped early only after a falsy result |
| ExpressRouter.ChainRaisesAtFirstError | Router.php:54-60 | a chain that raises does so at a callback that raises, after truthy results only |
| ExpressRouter.DeclKeepsPrefix | Router.php:26-37 | a declaration only appends routes, and one that raises nothing leaves the prefix as it found it, at any nesting depth |
| ExpressRouter.ChainKeepsPrefix | Router.php:48-66 | a chain only appends routes, and one that ends normally leaves the prefix unchanged |
| ExpressRouter.CallbackKeepsPrefix | Router.php:54-57 | a callback only appends routes, and one that returns leaves the prefix unchanged |
| ExpressRouter.BodyKeepsPrefix | Router.php:26-37 | a closure body only appends routes, and one that raises nothing leaves the prefix unchanged |
| ExpressRouter.UserPrefixMatches | Router.php:39-45 | the prefix `/user` is found in every path that starts with it |
| ExpressRouter.GroupDeclaresInOrder | Router.php:26-37 | a `use` group whose prefix occurs in the path and whose body declares two `get` routes raises nothing, appends both routes in order under the current prefix followed by the group's, and restores the prefix |
| ExpressRouter.UserGroupDeclares | index.php:5-13 | declaring the example group for a path below `/user` registers `/user/error` and then `/user/:name`, and restores the empty prefix |
| Pattern.CompileColonNoName | Router.php:101-104 | a template in which no `:` is followed by a word character compiles to its literal characters |
| ExpressRouter.LiteralRoute | Router.php:104-107 | a route without placeholders (no `:` in its url is followed by a word character), of the request method, matches exactly its own url and binds nothing |
| ExpressRouter.LiteralThenParam | Router.php:101-104 | literal text without `:` followed by `:name` compiles to those literals and one final placeholder |
| ExpressRouter.PlaceholderRouteMatches | Router.php:101-107 | a route of the request method whose url is literal text followed by `:name` matches that text followed by any non-empty word, and binds `name` to the word |
| ExpressRouter.ErrorRouteMatches | index.php:6 | `/user/error` matches its own path, binding nothing, and no other path |
| ExpressRouter.NameRouteMatches | index.php:10 | `/user/:name` matches `/user/<word>` and binds `name` to the word |
| ExpressRouter.UserErrorHitsStaticRoute | Router.php:100-109 | a `GET` request whose path is `/user/error` also matches `/user/:name` (binding `name` to `error`), but it runs the handler of the earlier `/user/error` route with no parameters |
| ExpressRouter.UserWordDispatch | Router.php:99-109 | `GET /user/<word>?<query>` runs the `/:name` handler with `name` bound to the word, for every word but `error` |
| ExpressRouter.OtherMethodNotFound | Router.php:95-97 | for every URI, a `POST` request finds none of the example's `get` routes: the outcome is 404 |
| ExpressRouter.MatchRouteFrom | Router.php:105-107 | a route whose method and template match binds each placeholder name to its capture |
| ExpressRouter.HandlerChainStops | Router.php:62 | a handler that returns nothing ends its chain after itself |
| GroupRouter.Contains | Route.php:64 | `strpos(s, t) !== false`: `t` occurs at some position of `s` (the empty string everywhere) |
| GroupRouter.RemoveAll | Route.php:20 | `str_replace(q, '', s)` never lengthens the string |
| GroupRouter.RemoveAllAbsent | Route.php:20 | a string where the url does not occur is left unchanged |
| GroupRouter.RemoveAllRestores | Route.php:20 | removing `q` from `p + q` gives `p` back when `q` occurs in `p + q` only at its end |
| GroupRouter.NestedSameUrlEmpties | Route.php:20 | removing `/a` from `/a/a` gives the empty string, not `/a` |
| GroupRouter.AbsentUrlStillLost | Route.php:20 | `aba` does not occur in `ab`, yet removing it from `ababa` gives `ba`, not `ab` |
| GroupRouter.Route.Namespace | Route.php:13-26 | `Next` appends to `current`, `Prev` removes every occurrence of the level from it, `Last` sets `last` |
| GroupRouter.Route.AddRoute | Route.php:28-36 | appends one route with url `current + url` and sets `last` to the url as written; the middleware and status tables are unchanged |
| GroupRouter.Route.Get | Route.php:105-109 | declares a `GET` route |
| GroupRouter.Route.Post | Route.php:111-115 | declares a `POST` route |
| GroupRouter.Route.Middleware | Route.php:117-125 | appends one middleware with url `current + last` and the given code; routes and status table unchanged |
| GroupRouter.Route.Group | Route.php:127-134 | appends the url to `current`, runs the body, removes every occurrence of the url from `current` and sets `last`; an exception from the body propagates and leaves the url appended |
| GroupRouter.Route.Status | Route.php:167-170 | sets the handler of a code, replacing any earlier one |
| GroupRouter.Route.Call | Route.php:90-103 | a closure runs its body and returns its value, a string goes through `loadClass` and returns nothing, a boolean returns itself, anything else raises |
| GroupRouter.Route.RunBody | Route.php:127-134 | a closure body performs its declarations in order until one raises |
| GroupRouter.Route.Declare | Route.php:105-170 | a declaration is one of `get`, `post`, `middleware`, `group`, `status` |
| GroupRouter.Route.HandleStatus | Route.php:158-165 | runs the handler registered for the code, or sets the bare code when there is none |
| GroupRouter.Route.GetAccess | Route.php:61-78 | calls the middleware whose url occurs in the route url, in registration order, until one returns exactly `false`, as `AccessRun` says |
| GroupRouter.Route.LoadRoute | Route.php:80-88 | runs the route with the merged arguments when access is granted, otherwise `handleStatus(403)` |
| GroupRouter.Route.FindRoute | Route.php:138-152 | the search returns the first route, in registration order, whose method equals the request method and whose whole `<name>` template matches the path |
| GroupRouter.Route.Run | Route.php:136-156 | exactly one terminal action: the first matching route is loaded, or `handleStatus(404)` |
| GroupRouter.StatusRun | Route.php:158-165 | `handleStatus` never runs a route, and it sets the bare code exactly when no handler is registered for it |
| GroupRouter.Applicable | Route.php:63-65 | the filtered middleware are exactly those whose url occurs in the route url, and no more of them than registered |
| GroupRouter.ApplicableSnoc | Route.php:63-65 | filtering keeps registration order and multiplicity: no middleware gives none, and one more registered middleware is appended to the filtered list exactly when its url occurs in the route url |
| GroupRouter.MergeArgs | Route.php:83 | the route argument has every key of the parameters, query, body and files; the value comes from the last of these that has the key |
| GroupRouter.FirstMatch | Route.php:143-152 | the route found matches and binds the parameters given, every earlier route fails to match, and "none" means no route matches |
| GroupRouter.AccessDecides | Route.php:61-78 | access is granted iff no applicable middleware returns exactly `false` or raises; otherwise evaluation stops at the first that does; a truthy code ends dispatch with that code, whose outcome is the code's handler, the bare code or the handler's exception; no code means denied |
| GroupRouter.FalseMiddlewareDenies | Route.php:96-97 | `middleware(false, code)` never lets access through |
| GroupRouter.NamedMiddlewareNeverDenies | Route.php:94-95 | a list made only of class-reference middleware never denies; at most loading one raises |
| GroupRouter.NamedMiddlewareNeverStops | Route.php:67-73 | in any list of middleware, the one that denies or ends dispatch with its code is never a class reference, and a class reference that raises raises the loading error |
| GroupRouter.LoadServedIff | Route.php:80-88 | `loadRoute` runs the route iff all applicable middleware let it through and its callback does not raise; it then runs with the merged arguments |
| GroupRouter.ServedIff | Route.php:136-156 | a request is served iff a route matches, its middleware lets it through and its callback does not raise; the first matching route then runs with its parameters merged with query, body and files |
| GroupRouter.ExitedEndsDispatch | Route.php:67-72 | when an applicable middleware returns `false` with a truthy code, dispatch ends with `handleStatus(code)` (handler, bare code or exception) and the route does not run |
| GroupRouter.DeniedIs403 | Route.php:85-87 | when middleware denies without a code the outcome is `handleStatus(403)`: the handler of 403, the bare code 403 or that handler's exception |
| GroupRouter.NotFoundIs404 | Route.php:155 | when no route matches the outcome is `handleStatus(404)`, the bare 404 with the tables untouched when no handler is registered |
| GroupRouter.StatusReplaces | Route.php:167-170 | a second `status` for a code replaces the first; `handleStatus` of that code then runs the new handler, and other codes behave as before |
| GroupRouter.DeclGrows | Route.php:28-36 | declarations only append routes and middleware and never drop a status code, at any nesting depth |
| GroupRouter.CallbackGrows | Route.php:90-103 | a call only appends routes and middleware and never drops a status code |
| GroupRouter.BodyGrows | Route.php:127-134 | a closure body only appends routes and middleware and never drops a status code |
| GroupRouter.GroupRestores | Route.php:127-134 | a group whose body returns and is balanced restores `current` when its url occurs in `current + url` only at the end, and sets `last` to its url |
| GroupRouter.NestedGroupLosesPrefix | Route.php:127-134 | a group `/a` inside a group `/a` leaves `current` empty instead of `/a` |
| GroupRouter.DeclaredRoutes | Route.php:105-115 | every route it lists for a body (the routes of its own `get` and `post` declarations; for a body without nested groups these are the routes the body adds, by `GroupRouter.FlatBody`) has a url that starts with the prefix |
| GroupRouter.FlatBody | Route.php:105-134 | a body without nested groups raises nothing, leaves `current` unchanged and appends exactly the routes it declares, in order, under `current` |
| GroupRouter.GroupPrefixesRoute | Route.php:127-134 | every route a group body without nested groups declares gets the enclosing prefix, the group url and its own url, in the order declared |
| GroupRouter.NestedGroupDropsRoutePrefix | Route.php:127-134 | after a nested group of the same url, a later route of the outer group loses the prefix: `group('/a', { group('/a', {}); get('/x') })` from an empty prefix registers `/x` |
| GroupRouter.MiddlewareScope | Route.php:117-125 | a middleware is appended with url `current + last`, and it applies to every route url that starts with that url |
| GroupRouter.MiddlewareFollowsRoute | Route.php:117-125 | a middleware declared right after a route is scoped to that route's full url, so it applies to it |
| GroupRouter.MiddlewareFollowsGroup | Route.php:117-134 | a middleware declared right after any group whose body returns and leaves `current` balanced, and whose url occurs in `current + url` only at its end, is scoped to the group's full url, so it applies to every route url that starts with it |
| GroupRouter.MiddlewareCoversFlatGroup | Route.php:117-134 | a middleware declared right after a group whose body has no nested groups, and whose url occurs in `current + url` only at its end, applies to every route that group declared |
| GroupRouter.FlatGroupThenMiddleware | Route.php:117-134 | after a group whose body has no nested groups, the routes added are the body's under `current + url`, and the next middleware is scoped to what `str_replace` leaves of `current + url`, followed by the group url |
| GroupRouter.OverlappingGroupMissesRoute | Route.php:117-134 | without the only-at-end condition the middleware can miss the group's routes: under prefix `ab`, `group('aba', { get('/x') })` registers `ababa/x`, and the next middleware gets url `baaba`, which does not occur in it |

## Left out

- `Request` and `Response` (Router.php:117-194). They are I/O plumbing: superglobals, request headers, the body stream, `header`, `echo`. The request is a constant of each router object, and the query, body and file parameters are plain maps.
- Class loading in `loadClass`. The `require_once`, the `method_exists` test and the instantiation are reflection. Only the split of the reference is modelled. For `Router.php` the method's truthiness is a parameter of the callback. For `Route.php` the method's result is discarded, as in the source. In both routers a loaded method declares nothing: `ExpressRouter.CallbackTables` leaves the tables unchanged for a `ClassMethod`, and `GroupRouter.CallbackTables` does the same for a `Named` callback.
- `Route::redirect` and the `exit()` after a middleware code are left out. Both are process termination and header output, so `exit()` is the terminal `Exited` access result, whose outcome is that of `handleStatus`.
- `http_response_code` is left out as output. It is the `NotFound` outcome and the `Bare(code)` outcome.
- Full PCRE semantics are left out. Literal template text is matched character by character. Regex metacharacters in templates, the `#` delimiter and `$` matching before a final newline are not modelled. Two adjacent placeholders are matched by the modelled backtracking, but their captures are then not unique (`MatchUnique` requires each placeholder to be followed by a non-word literal or the end).
- `isUrlMatch` ignores case. The model folds ASCII letters only.
- `is_callable` on strings is left out. A string that names a global function or `Class::method` is callable in PHP. The model treats every string callback as a class reference.
- The non-string first argument of `Router::use` (Router.php:27, 35) is left out. It passes a closure to the regex functions, which is a type error in PHP. The prefix is always a string.
- Codes, urls and methods are assumed to have their natural types: string urls and methods, integer status codes. PHP's loose `==` and the truthiness of non-integer codes are not modelled.
- `array_merge` and `array_combine` with numeric keys are left out. PHP turns an all-digit placeholder name such as `<1>` or `:1`, and a numeric query, body or file key such as `?0=x`, into an integer key. `array_merge` renumbers integer keys instead of letting the later source win. The model treats every key as a string, so `GroupRouter.MergeArgs`'s "last source wins" holds in the source only for non-numeric keys. File parameters are modelled as strings.
- GroupRouter.MergeArgs: every key is a string in the model, so the renumbering of integer keys by `array_merge` is not modelled. The "last source wins" contract matches the source for non-numeric keys only.
- The empty needle of `strpos` follows the mathematical rule. A middleware declared before any route has url `''`, and the model treats `''` as occurring in every url. Older PHP versions warn and return `false` instead.
- Static-before-parameterized route ordering is not modelled. Neither file implements it: both dispatch in registration order.
- Where the code and its design description differ, the model follows the code:
  - middleware applies when its url occurs anywhere in the route's template url (not in the request path, and not only as a prefix);
  - a template may repeat a placeholder name, and the later capture wins (`Pattern.BindLastWins`);
  - `group` removes every occurrence of its url from the prefix (`GroupRouter.NestedGroupLosesPrefix`, `GroupRouter.AbsentUrlStillLost`), and it does not restore the prefix when its body raises.
- GroupRouter.GroupPrefixesRoute: the prefix is proved only for bodies without nested groups. A nested group of the same url empties the prefix for the rest of the outer body (`GroupRouter.NestedGroupDropsRoutePrefix`), so the property does not hold for every body.
- GroupRouter.MiddlewareCoversFlatGroup: like `GroupRouter.GroupPrefixesRoute`, it covers only bodies without nested groups. It also needs the group url to occur in `current + url` only at its end, because otherwise `str_replace` does not restore the prefix (`GroupRouter.OverlappingGroupMissesRoute`). For any other body, `GroupRouter.MiddlewareFollowsGroup` needs the body to leave `current` balanced, under the same only-at-end condition.
- GroupRouter.GroupRestores: restoration is proved for one group, given that its body leaves `current` balanced. There is no all-inputs statement, because `str_replace` does not restore the prefix in general.

=== FILE: class_ref.dfy ===
/**
 * String-addressed handlers of the form "path/Class@method": the split that both
 * routers perform before loading the class (the loading itself is reflection and is
 * not part of this model).
 */
module ClassRef {
  import opened Options

  /** The file to load, the class to instantiate and the method to call. */
  datatype Parts = Parts(file: string, className: string, methodName: string)

  /** A reference without `@`, or with `@` as its first character, cannot be loaded. */
  datatype Error = CannotLoadClass

  /** Position of the first `c` in `s`, or `|s|` when there is none. */
  function IndexOf(s: string, c: char): (k: nat)
    ensures k <= |s| && c !in s[..k]
    ensures k < |s| ==> s[k] == c
  {
    if s == [] || s[0] == c then 0
    else
      assert s[..1 + IndexOf(s[1..], c)] == [s[0]] + s[1..][..IndexOf(s[1..], c)];
      1 + IndexOf(s[1..], c)
  }

  /** Where the last `/`-separated piece of `s` starts: just after its last `/`, or 0. */
  function LastSlashEnd(s: string): (k: nat)
    ensures k <= |s| && (k > 0 ==> s[k - 1] == '/')
    ensures forall i :: k <= i < |s| ==> s[i] != '/'
    decreases |s|
  {
    if s == [] then 0
    else if s[|s| - 1] == '/' then |s|
    else LastSlashEnd(s[..|s| - 1])
  }

  /** The last `/`-separated piece of `s`. */
  function LastPiece(s: string): (r: string)
    ensures |r| <= |s| && r == s[|s| - |r|..] && '/' !in r
    ensures |r| < |s| ==> s[|s| - |r| - 1] == '/'
  {
    s[LastSlashEnd(s)..]
  }

  /**
   * Splits a reference at its `@` signs: the file is the text before the first `@`
   * followed by ".php", the class is the last `/`-piece of that text, and the method is
   * the text between the first and the second `@` (or the end).
   */
  function Parse(ref: string): (r: Result<Parts, Error>)
    ensures r.Ok? <==> '@' in ref && ref[0] != '@'
    ensures r.Ok? ==>
      var k := |r.value.file| - 4;
      var m := r.value.methodName;
      0 < k < |ref| && r.value.file == ref[..k] + ".php" && '@' !in ref[..k] && ref[k] == '@'
      && k + 1 + |m| <= |ref| && ref[k + 1..k + 1 + |m|] == m && '@' !in m
      && (k + 1 + |m| < |ref| ==> ref[k + 1 + |m|] == '@')
      && r.value.className == LastPiece(ref[..k])
  {
    var k := IndexOf(ref, '@');
    if k == 0 || k == |ref| then Err(CannotLoadClass)
    else
      var after := ref[k + 1..];
      var m := after[..IndexOf(after, '@')];
      assert ref[k + 1..k + 1 + |m|] == m;
      Ok(Parts(ref[..k] + ".php", LastPiece(ref[..k]), m))
  }

  /** The first `c` is found where it first occurs. */
  lemma IndexOfAt(s: string, c: char, k: nat)
    requires k <= |s| && c !in s[..k] && (k < |s| ==> s[k] == c)
    ensures IndexOf(s, c) == k
  {
  }

  /** Writing a path and a method as "path@method" and splitting it gives them back. */
  lemma ParseCompose(path: string, name: string)
    requires path != [] && '@' !in path && '@' !in name
    ensures Parse(path + "@" + name) == Ok(Parts(path + ".php", LastPiece(path), name))
  {
    var ref := path + "@" + name;
    assert ref[..|path|] == path;
    IndexOfAt(ref, '@', |path|);
    assert ref[|path| + 1..] == name;
    IndexOfAt(name, '@', |name|);
    assert name[..|name|] == name;
    assert |path| != 0 && |path| != |ref|;
  }
}

=== FILE: express_router.dfy ===
/**
 * The Express-style router (class Router): routes declared through static calls
 * named after HTTP methods, prefix groups declared with `use` (registered only when
 * their prefix occurs in the request path), callback chains that stop at the first
 * falsy result, and dispatch of one request to the first matching route.
 *
 * Callbacks are data. A closure is the script of declarations it performs when
 * called, followed by the truthiness of its return value; a string callback is a
 * "path/Class@method" reference whose method result is given; anything else cannot
 * be called. What a callback does is described by two pure functions: `Verdict`
 * (what the call returns or raises, which depends only on the callback and the
 * request) and `CallbackTables` (the route list and prefix it leaves behind).
 */
module ExpressRouter {
  import opened Options
  import opened Pattern
  import ClassRef

  /** The static call names that declare a route. */
  const Methods: seq<string> := ["get", "post", "put", "patch", "delete"]

  datatype Callback =
    | Closure(decls: seq<Decl>, truthy: bool)
    | ClassMethod(ref: string, truthy: bool)
    | NotCallable

  /** A declaration a closure performs: `Router::<name>(url, callbacks...)` or `Router::use(prefix, body...)`. */
  datatype Decl =
    | VerbCall(name: string, url: string, callbacks: seq<Callback>)
    | PrefixGroup(prefix: string, body: seq<Callback>)

  datatype RouteEntry = RouteEntry(verb: string, url: string, callbacks: seq<Callback>)

  /** The exceptions `call` and `loadClass` raise. */
  datatype Error = CannotCall | CannotLoadClass

  /** How a callback chain ended: after `invoked` callbacks, or with an exception from callback `at`. */
  datatype ChainResult = Stopped(invoked: nat) | Raised(at: nat, error: Error)

  /** The router's static state. */
  datatype Tables = Tables(routes: seq<RouteEntry>, urlPrefix: string)

  /** The one terminal action of `run`: the chain of route `route` ran, or the response code is 404. */
  datatype Outcome = Matched(route: nat, params: map<string, string>, chain: ChainResult) | NotFound

  // ---------------------------------------------------------------------------
  // Strings
  // ---------------------------------------------------------------------------

  function UpperChar(c: char): char {
    if 'a' <= c <= 'z' then (c as int - 32) as char else c
  }

  /** `strtoupper`, on ASCII letters. */
  function Upper(s: string): string {
    if s == [] then [] else [UpperChar(s[0])] + Upper(s[1..])
  }

  /** `preg_replace('/' . preg_quote(q, '/') . '$/', '', s)`: drops `q` from the end of `s` when it is there. */
  function StripSuffix(s: string, q: string): string {
    if |q| <= |s| && s[|s| - |q|..] == q then s[..|s| - |q|] else s
  }

  /** Stripping what was just appended gives the string back. */
  lemma StripSuffixAppend(s: string, q: string)
    ensures StripSuffix(s + q, q) == s
  {
    assert (s + q)[|s|..] == q;
    assert (s + q)[..|s|] == s;
  }

  /** `isUrlMatch`: the compiled prefix occurs, ignoring ASCII case, somewhere in the request path. */
  function IsUrlMatch(prefix: string, uri: string): bool {
    UrlMatch(CompileColon(prefix), PathOf(uri))
  }

  // ---------------------------------------------------------------------------
  // What a call returns or raises (independent of the tables)
  // ---------------------------------------------------------------------------

  /** The result of calling one callback: its truthiness, or the exception it raises. */
  function Verdict(cb: Callback, uri: string): Result<bool, Error>
    decreases cb, 0
  {
    match cb
    case Closure(decls, truthy) =>
      (match BodyError(decls, 0, uri) case Some(e) => Err(e) case None => Ok(truthy))
    case ClassMethod(ref, truthy) =>
      if ClassRef.Parse(ref).Err? then Err(CannotLoadClass) else Ok(truthy)
    case NotCallable => Err(CannotCall)
  }

  /** The first exception raised by the declarations `decls[j..]` of a closure body. */
  function BodyError(decls: seq<Decl>, j: nat, uri: string): Option<Error>
    requires j <= |decls|
    decreases decls, |decls| - j
  {
    if j == |decls| then None
    else match DeclError(decls[j], uri)
      case Some(e) => Some(e)
      case None => BodyError(decls, j + 1, uri)
  }

  /** The exception a declaration raises: only a prefix group whose body chain raises. */
  function DeclError(d: Decl, uri: string): Option<Error>
    decreases d, 0
  {
    match d
    case VerbCall(_, _, _) => None
    case PrefixGroup(prefix, body) =>
      if !IsUrlMatch(prefix, uri) then None
      else match ChainVerdict(body, 0, uri)
        case Raised(_, e) => Some(e)
        case Stopped(_) => None
  }

  /** `call` on `chain[i..]`: invoke in order, stop after the first falsy result or at an exception. */
  function ChainVerdict(chain: seq<Callback>, i: nat, uri: string): ChainResult
    requires i <= |chain|
    decreases chain, |chain| - i
  {
    if i == |chain| then Stopped(|chain|)
    else match Verdict(chain[i], uri)
      case Err(e) => Raised(i, e)
      case Ok(truthy) => if truthy then ChainVerdict(chain, i + 1, uri) else Stopped(i + 1)
  }

  // ---------------------------------------------------------------------------
  // What a call leaves in the tables
  // ---------------------------------------------------------------------------

  function CallbackTables(cb: Callback, uri: string, st: Tables): Tables
    decreases cb, 0
  {
    match cb
    case Closure(decls, _) => BodyTables(decls, 0, uri, st)
    case ClassMethod(_, _) => st
    case NotCallable => st
  }

  /** The tables after the declarations `decls[j..]`, which stop at the first exception. */
  function BodyTables(decls: seq<Decl>, j: nat, uri: string, st: Tables): Tables
    requires j <= |decls|
    decreases decls, |decls| - j
  {
    if j == |decls| then st
    else
      var st1 := DeclTables(decls[j], uri, st);
      if DeclError(decls[j], uri).Some? then st1 else BodyTables(decls, j + 1, uri, st1)
  }

  function DeclTables(d: Decl, uri: string, st: Tables): Tables
    decreases d, 0
  {
    match d
    case VerbCall(name, url, callbacks) =>
      if name in Methods then st.(routes := st.routes + [RouteEntry(name, st.urlPrefix + url, callbacks)]) else st
    case PrefixGroup(prefix, body) =>
      if !IsUrlMatch(prefix, uri) then st
      else
        var st1 := ChainTables(body, 0, uri, st.(urlPrefix := st.urlPrefix + prefix));
        if ChainVerdict(body, 0, uri).Raised? then st1
        else st1.(urlPrefix := StripSuffix(st1.urlPrefix, prefix))
  }

  function ChainTables(chain: seq<Callback>, i: nat, uri: string, st: Tables): Tables
    requires i <= |chain|
    decreases chain, |chain| - i
  {
    if i == |chain| then st
    else
      var st1 := CallbackTables(chain[i], uri, st);
      if Verdict(chain[i], uri) == Ok(true) then ChainTables(chain, i + 1, uri, st1) else st1
  }

  // ---------------------------------------------------------------------------
  // Dispatch
  // ---------------------------------------------------------------------------

  /** The parameters a route binds for a request, if its method and its whole template match. */
  function MatchRoute(r: RouteEntry, verb: string, path: string): Option<map<string, string>> {
    var toks := CompileColon(r.url);
    if Upper(r.verb) != verb then None
    else match MatchFrom(toks, path, false, true)
      case None => None
      case Some(caps) =>
        MatchSound(toks, path, false, true);
        SpellsArity(toks, caps, path, false, true);
        Some(Bind(Names(toks), caps))
  }

  /** The first route at or after `i` that matches, with the parameters it binds. */
  function FirstMatch(routes: seq<RouteEntry>, verb: string, path: string, i: nat): (r: Option<(nat, map<string, string>)>)
    requires i <= |routes|
    ensures r.Some? ==> i <= r.value.0 < |routes| && MatchRoute(routes[r.value.0], verb, path) == Some(r.value.1)
    ensures r.Some? ==> forall j :: i <= j < r.value.0 ==> MatchRoute(routes[j], verb, path).None?
    ensures r.None? ==> forall j :: i <= j < |routes| ==> MatchRoute(routes[j], verb, path).None?
    decreases |routes| - i
  {
    if i == |routes| then None
    else match MatchRoute(routes[i], verb, path)
      case Some(ps) => Some((i, ps))
      case None => FirstMatch(routes, verb, path, i + 1)
  }

  /** `run`: the first matching route runs its chain; otherwise the response is 404. */
  function Dispatch(st: Tables, verb: string, uri: string): (Outcome, Tables) {
    match FirstMatch(st.routes, verb, PathOf(uri), 0)
    case None => (NotFound, st)
    case Some((k, ps)) =>
      var chain := st.routes[k].callbacks;
      (Matched(k, ps, ChainVerdict(chain, 0, uri)), ChainTables(chain, 0, uri, st))
  }

  // ---------------------------------------------------------------------------
  // The router
  // ---------------------------------------------------------------------------

  class Router {
    /** The request method and URI, as the host reports them. */
    const requestMethod: string
    const requestUri: string
    var routes: seq<RouteEntry>
    var urlPrefix: string

    function State(): Tables
      reads this
    {
      Tables(routes, urlPrefix)
    }

    constructor (requestMethod: string, requestUri: string)
      ensures this.requestMethod == requestMethod && this.requestUri == requestUri
      ensures routes == [] && urlPrefix == ""
    {
      this.requestMethod := requestMethod;
      this.requestUri := requestUri;
      routes := [];
      urlPrefix := "";
    }

    /** `Router::<name>(url, callbacks...)`: declares a route when `name` is one of `Methods`. */
    method CallStatic(name: string, url: string, callbacks: seq<Callback>)
      modifies this
      ensures name in Methods ==> routes == old(routes) + [RouteEntry(name, old(urlPrefix) + url, callbacks)]
      ensures name !in Methods ==> routes == old(routes)
      ensures urlPrefix == old(urlPrefix)
    {
      if name in Methods {
        AddRoute(name, url, callbacks);
      }
    }

    /** Appends one route whose url is the current prefix followed by `url`. */
    method AddRoute(verb: string, url: string, callbacks: seq<Callback>)
      modifies this
      ensures routes == old(routes) + [RouteEntry(verb, old(urlPrefix) + url, callbacks)]
      ensures urlPrefix == old(urlPrefix)
    {
      routes := routes + [RouteEntry(verb, urlPrefix + url, callbacks)];
    }

    /**
     * `Router::use(prefix, body...)`: when the prefix occurs in the request path, runs
     * the body with the prefix appended, then removes the trailing copy. An exception
     * from the body propagates and leaves the prefix appended.
     */
    method Use(prefix: string, body: seq<Callback>) returns (err: Option<Error>)
      modifies this
      decreases body, 2
      ensures err == DeclError(PrefixGroup(prefix, body), requestUri)
      ensures State() == DeclTables(PrefixGroup(prefix, body), requestUri, old(State()))
      ensures !IsUrlMatch(prefix, requestUri) ==> routes == old(routes) && urlPrefix == old(urlPrefix)
      ensures err.None? ==> urlPrefix == old(urlPrefix)
    {
      DeclKeepsPrefix(PrefixGroup(prefix, body), requestUri, State());
      if !IsUrlMatch(prefix, requestUri) {
        return None;
      }
      urlPrefix := urlPrefix + prefix;
      var r := Call(body);
      if r.Raised? {
        return Some(r.error);
      }
      urlPrefix := StripSuffix(urlPrefix, prefix);
      err := None;
    }

    /** `call`: invokes the chain in order and stops after the first falsy result. */
    method Call(chain: seq<Callback>) returns (r: ChainResult)
      modifies this
      decreases chain, 1
      ensures r == ChainVerdict(chain, 0, requestUri)
      ensures State() == ChainTables(chain, 0, requestUri, old(State()))
    {
      var i := 0;
      while i < |chain|
        invariant 0 <= i <= |chain|
        invariant ChainVerdict(chain, 0, requestUri) == ChainVerdict(chain, i, requestUri)
        invariant ChainTables(chain, 0, requestUri, old(State())) == ChainTables(chain, i, requestUri, State())
      {
        var v := Invoke(chain[i]);
        match v
        case Err(e) =>
          return Raised(i, e);
        case Ok(truthy) =>
          if !truthy {
            return Stopped(i + 1);
          }
        i := i + 1;
      }
      r := Stopped(|chain|);
    }

    /** One callback of a chain: a closure runs its body, a string goes through `loadClass`. */
    method Invoke(cb: Callback) returns (v: Result<bool, Error>)
      modifies this
      decreases cb, 1
      ensures v == Verdict(cb, requestUri)
      ensures State() == CallbackTables(cb, requestUri, old(State()))
    {
      match cb
      case Closure(decls, truthy) =>
        var err := RunBody(decls);
        v := if err.Some? then Err(err.value) else Ok(truthy);
      case ClassMethod(ref, truthy) =>
        v := if ClassRef.Parse(ref).Err? then Err(CannotLoadClass) else Ok(truthy);
      case NotCallable =>
        v := Err(CannotCall);
    }

    /** The body of a closure: its declarations in order, until one raises. */
    method RunBody(decls: seq<Decl>) returns (err: Option<Error>)
      modifies this
      decreases decls, 1
      ensures err == BodyError(decls, 0, requestUri)
      ensures State() == BodyTables(decls, 0, requestUri, old(State()))
    {
      var j := 0;
      while j < |decls|
        invariant 0 <= j <= |decls|
        invariant BodyError(decls, 0, requestUri) == BodyError(decls, j, requestUri)
        invariant BodyTables(decls, 0, requestUri, old(State())) == BodyTables(decls, j, requestUri, State())
      {
        var e := Declare(decls[j]);
        if e.Some? {
          return e;
        }
        j := j + 1;
      }
      err := None;
    }

    method Declare(d: Decl) returns (err: Option<Error>)
      modifies this
      decreases d, 1
      ensures err == DeclError(d, requestUri)
      ensures State() == DeclTables(d, requestUri, old(State()))
    {
      match d
      case VerbCall(name, url, callbacks) =>
        CallStatic(name, url, callbacks);
        err := None;
      case PrefixGroup(prefix, body) =>
        err := Use(prefix, body);
    }

    /** The search of `run`: the first route, in registration order, that matches the request. */
    method FindRoute(verb: string, path: string) returns (found: Option<(nat, map<string, string>)>)
      ensures found == FirstMatch(routes, verb, path, 0)
    {
      var i := 0;
      while i < |routes|
        invariant 0 <= i <= |routes|
        invariant FirstMatch(routes, verb, path, 0) == FirstMatch(routes, verb, path, i)
      {
        var ps := MatchRoute(routes[i], verb, path);
        if ps.Some? {
          return Some((i, ps.value));
        }
        i := i + 1;
      }
      found := None;
    }

    /** `run`: exactly one terminal action, the chain of the first match or the 404 code. */
    method Run() returns (o: Outcome)
      modifies this
      ensures (o, State()) == Dispatch(old(State()), requestMethod, requestUri)
    {
      var found := FindRoute(requestMethod, PathOf(requestUri));
      match found
      case None =>
        o := NotFound;
      case Some((k, ps)) =>
        var r := Call(routes[k].callbacks);
        o := Matched(k, ps, r);
    }
  }

  // ---------------------------------------------------------------------------
  // Properties
  // ---------------------------------------------------------------------------

  /**
   * A chain that ends normally invoked its callbacks in order: all but the last one it
   * invoked returned a truthy value, and it stopped before the end only after a falsy one.
   */
  lemma {:induction false} ChainStopsAtFirstFalsy(chain: seq<Callback>, i: nat, uri: string, n: nat)
    requires i <= |chain| && ChainVerdict(chain, i, uri) == Stopped(n)
    ensures i <= n <= |chain| && (i < |chain| ==> i < n)
    ensures forall k :: i <= k && k + 1 < n ==> Verdict(chain[k], uri) == Ok(true)
    ensures i < n < |chain| ==> Verdict(chain[n - 1], uri) == Ok(false)
    ensures i < n ==> Verdict(chain[n - 1], uri).Ok?
    decreases |chain| - i
  {
    if i < |chain| {
      var v := Verdict(chain[i], uri);
      if v == Ok(true) {
        assert ChainVerdict(chain, i + 1, uri) == Stopped(n);
        ChainStopsAtFirstFalsy(chain, i + 1, uri, n);
        forall k | i <= k && k + 1 < n
          ensures Verdict(chain[k], uri) == Ok(true)
        {
          if k == i {
            assert Verdict(chain[k], uri) == v;
          }
        }
      } else {
        assert v == Ok(false) && n == i + 1;
      }
    }
  }

  /** A chain that raises does so at a callback that raises, after truthy results only. */
  lemma {:induction false} ChainRaisesAtFirstError(chain: seq<Callback>, i: nat, uri: string, at: nat, e: Error)
    requires i <= |chain| && ChainVerdict(chain, i, uri) == Raised(at, e)
    ensures i <= at < |chain| && Verdict(chain[at], uri) == Err(e)
    ensures forall k :: i <= k < at ==> Verdict(chain[k], uri) == Ok(true)
    decreases |chain| - i
  {
    var v := Verdict(chain[i], uri);
    if v == Ok(true) {
      assert ChainVerdict(chain, i + 1, uri) == Raised(at, e);
      ChainRaisesAtFirstError(chain, i + 1, uri, at, e);
    } else {
      assert v == Err(e) && at == i;
    }
  }

  /**
   * Declarations only append routes, and a declaration that raises nothing leaves the
   * prefix as it found it: every `use` removes exactly what it appended.
   */
  lemma {:induction false} DeclKeepsPrefix(d: Decl, uri: string, st: Tables)
    ensures st.routes <= DeclTables(d, uri, st).routes
    ensures DeclError(d, uri).None? ==> DeclTables(d, uri, st).urlPrefix == st.urlPrefix
    decreases d, 0
  {
    match d
    case VerbCall(_, _, _) =>
    case PrefixGroup(prefix, body) =>
      if IsUrlMatch(prefix, uri) {
        var st0 := st.(urlPrefix := st.urlPrefix + prefix);
        ChainKeepsPrefix(body, 0, uri, st0);
        StripSuffixAppend(st.urlPrefix, prefix);
      }
  }

  lemma {:induction false} ChainKeepsPrefix(chain: seq<Callback>, i: nat, uri: string, st: Tables)
    requires i <= |chain|
    ensures st.routes <= ChainTables(chain, i, uri, st).routes
    ensures ChainVerdict(chain, i, uri).Stopped? ==> ChainTables(chain, i, uri, st).urlPrefix == st.urlPrefix
    decreases chain, |chain| - i
  {
    if i < |chain| {
      var st1 := CallbackTables(chain[i], uri, st);
      CallbackKeepsPrefix(chain[i], uri, st);
      if Verdict(chain[i], uri) == Ok(true) {
        ChainKeepsPrefix(chain, i + 1, uri, st1);
      }
    }
  }

  lemma {:induction false} CallbackKeepsPrefix(cb: Callback, uri: string, st: Tables)
    ensures st.routes <= CallbackTables(cb, uri, st).routes
    ensures Verdict(cb, uri).Ok? ==> CallbackTables(cb, uri, st).urlPrefix == st.urlPrefix
    decreases cb, 0
  {
    match cb
    case Closure(decls, _) => BodyKeepsPrefix(decls, 0, uri, st);
    case ClassMethod(_, _) =>
    case NotCallable =>
  }

  lemma {:induction false} BodyKeepsPrefix(decls: seq<Decl>, j: nat, uri: string, st: Tables)
    requires j <= |decls|
    ensures st.routes <= BodyTables(decls, j, uri, st).routes
    ensures BodyError(decls, j, uri).None? ==> BodyTables(decls, j, uri, st).urlPrefix == st.urlPrefix
    decreases decls, |decls| - j
  {
    if j < |decls| {
      var st1 := DeclTables(decls[j], uri, st);
      DeclKeepsPrefix(decls[j], uri, st);
      if DeclError(decls[j], uri).None? {
        BodyKeepsPrefix(decls, j + 1, uri, st1);
      }
    }
  }

  // ---------------------------------------------------------------------------
  // The routes of the example application
  // ---------------------------------------------------------------------------

  /** The two handlers of the example; neither returns a value. */
  const ErrorHandler := Closure([], false)
  const NameHandler := Closure([], false)

  /** `Router::use('/user', function () { Router::get('/error', ...); Router::get('/:name', ...); })` */
  const UserGroup := PrefixGroup("/user", [Closure([
    VerbCall("get", "/error", [ErrorHandler]),
    VerbCall("get", "/:name", [NameHandler])], false)])

  const UserRoutes := [RouteEntry("get", "/user/error", [ErrorHandler]), RouteEntry("get", "/user/:name", [NameHandler])]

  /** The prefix `/user` occurs in every path that starts with it. */
  lemma UserPrefixMatches(uri: string)
    requires |PathOf(uri)| >= 5 && PathOf(uri)[..5] == "/user"
    ensures IsUrlMatch("/user", uri)
  {
    var path := PathOf(uri);
    CompileColonLiteralPrefix("/user", "");
    assert "/user" + "" == "/user";
    var toks := CompileColon("/user");
    assert toks == Lits("/user") + [];
    MatchLitsPrefix("/user", [], path, true, false);
    assert MatchFrom(toks, path[0..], true, false).Some? by { assert path[0..] == path; }
  }

  /**
   * A `use` group whose prefix matches and whose body declares two `get` routes appends
   * both, in order, under the current prefix followed by the group's, then restores the
   * prefix.
   */
  lemma GroupDeclaresInOrder(prefix: string, a: string, b: string, h1: Callback, h2: Callback, uri: string, st: Tables)
    requires IsUrlMatch(prefix, uri)
    ensures var g := PrefixGroup(prefix, [Closure([VerbCall("get", a, [h1]), VerbCall("get", b, [h2])], false)]);
      DeclError(g, uri) == None
      && DeclTables(g, uri, st) == Tables(st.routes + [RouteEntry("get", st.urlPrefix + prefix + a, [h1]),
                                                      RouteEntry("get", st.urlPrefix + prefix + b, [h2])], st.urlPrefix)
  {
    var decls := [VerbCall("get", a, [h1]), VerbCall("get", b, [h2])];
    var body := [Closure(decls, false)];
    var p := st.urlPrefix + prefix;
    var r1 := RouteEntry("get", p + a, [h1]);
    var r2 := RouteEntry("get", p + b, [h2]);
    var st0 := st.(urlPrefix := p);
    assert "get" in Methods by { assert Methods[0] == "get"; }
    var st1 := DeclTables(decls[0], uri, st0);
    assert st1 == Tables(st.routes + [r1], p);
    var st2 := DeclTables(decls[1], uri, st1);
    assert st2 == Tables(st.routes + [r1, r2], p);
    assert BodyTables(decls, 2, uri, st2) == st2;
    assert BodyTables(decls, 0, uri, st0) == st2;
    assert BodyError(decls, 2, uri) == None;
    assert BodyError(decls, 1, uri) == None;
    assert BodyError(decls, 0, uri) == None;
    assert Verdict(body[0], uri) == Ok(false);
    assert ChainVerdict(body, 0, uri) == Stopped(1);
    assert ChainTables(body, 0, uri, st0) == st2;
    StripSuffixAppend(st.urlPrefix, prefix);
  }

  /** Declaring the example for a request below `/user` registers both routes, `/user/error` first. */
  lemma UserGroupDeclares(uri: string)
    requires |PathOf(uri)| >= 5 && PathOf(uri)[..5] == "/user"
    ensures DeclError(UserGroup, uri) == None
    ensures DeclTables(UserGroup, uri, Tables([], "")) == Tables(UserRoutes, "")
  {
    UserPrefixMatches(uri);
    GroupDeclaresInOrder("/user", "/error", "/:name", ErrorHandler, NameHandler, uri, Tables([], ""));
    UserUrls();
  }

  lemma UserUrls()
    ensures "" + "/user" + "/error" == "/user/error"
    ensures "" + "/user" + "/:name" == "/user/:name"
  {
    assert "" + "/user" == "/user";
  }

  lemma UpperGet()
    ensures Upper("get") == "GET"
  {
    assert Upper("t") == "T";
    assert Upper("et") == "ET";
  }

  /** A route whose method and template match binds its names to the captures. */
  lemma MatchRouteFrom(r: RouteEntry, verb: string, path: string, caps: seq<string>)
    requires Upper(r.verb) == verb
    requires MatchFrom(CompileColon(r.url), path, false, true) == Some(caps)
    ensures |Names(CompileColon(r.url))| == |caps|
    ensures MatchRoute(r, verb, path) == Some(Bind(Names(CompileColon(r.url)), caps))
  {
    MatchSound(CompileColon(r.url), path, false, true);
    SpellsArity(CompileColon(r.url), caps, path, false, true);
  }

  /**
   * A route without placeholders (no `:` in its url is followed by a word character)
   * matches exactly its own url, binding nothing.
   */
  lemma LiteralRoute(r: RouteEntry, verb: string, path: string)
    requires NoColonName(r.url) && Upper(r.verb) == verb
    ensures MatchRoute(r, verb, path) == if path == r.url then Some(map[]) else None
  {
    CompileColonNoName(r.url);
    assert Lits(r.url) + [] == Lits(r.url);
    MatchLitsExact(r.url, path);
    NamesLits(r.url, []);
  }

  /** The first route matches its own path, binding nothing, and no other path. */
  lemma ErrorRouteMatches(path: string)
    ensures MatchRoute(UserRoutes[0], "GET", path) == if path == "/user/error" then Some(map[]) else None
  {
    UpperGet();
    LiteralRoute(UserRoutes[0], "GET", path);
  }

  /** Literal text followed by one final placeholder compiles to those literals and the placeholder. */
  lemma LiteralThenParam(p: string, name: string)
    requires ':' !in p && name != [] && IsWord(name)
    ensures CompileColon(p + ":" + name) == Lits(p) + [Param(name)]
  {
    FinalPlaceholder(name);
    CompileColonLiteralPrefix(p, ":" + name);
    AppendAssoc(p, ":", name);
  }

  lemma AppendAssoc(a: string, b: string, c: string)
    ensures a + (b + c) == a + b + c
  {
  }

  lemma FinalPlaceholder(name: string)
    requires name != [] && IsWord(name)
    ensures CompileColon(":" + name) == [Param(name)]
  {
    CompileColonPlaceholder(name, []);
    assert ":" + name + [] == ":" + name;
    assert [Param(name)] + CompileColon([]) == [Param(name)];
  }

  /**
   * A route made of literal text and one final placeholder binds the placeholder's name
   * to any non-empty word that follows that text.
   */
  lemma PlaceholderRouteMatches(r: RouteEntry, verb: string, p: string, name: string, v: string)
    requires Upper(r.verb) == verb && r.url == p + ":" + name
    requires ':' !in p && name != [] && IsWord(name) && v != [] && IsWord(v)
    ensures MatchRoute(r, verb, p + v) == Some(map[name := v])
  {
    LiteralThenParam(p, name);
    NamesLits(p, [Param(name)]);
    assert Names([Param(name)]) == [name];
    var path := p + v;
    assert path[..|p|] == p && path[|p|..] == v;
    MatchLitsPrefix(p, [Param(name)], path, false, true);
    MatchLastParam(name, v);
    MatchRouteFrom(r, verb, path, [v]);
  }

  /** The second route binds `name` to any word after `/user/`. */
  lemma NameRouteMatches(v: string)
    requires v != [] && IsWord(v)
    ensures MatchRoute(UserRoutes[1], "GET", "/user/" + v) == Some(map["name" := v])
  {
    UpperGet();
    UserNameRoute();
    PlaceholderRouteMatches(UserRoutes[1], "GET", "/user/", "name", v);
  }

  lemma UserNameRoute()
    ensures UserRoutes[1].url == "/user/" + ":" + "name"
    ensures ':' !in "/user/" && IsWord("name")
  {
    var name := "name";
    forall i | 0 <= i < |name| ensures IsWordChar(name[i]) {
      assert 'a' <= name[i] <= 'z';
    }
  }

  /** Either handler of the example, called, returns nothing: its chain stops after it. */
  lemma HandlerChainStops(h: Callback, uri: string)
    requires h == ErrorHandler || h == NameHandler
    ensures ChainVerdict([h], 0, uri) == Stopped(1)
  {
    assert BodyError([], 0, uri) == None;
    assert Verdict(h, uri) == Ok(false);
  }

  /**
   * A request for `/user/error` (with or without a query) also matches `/user/:name`,
   * but it runs the handler of the earlier `/user/error` route.
   */
  lemma UserErrorHitsStaticRoute(uri: string)
    requires PathOf(uri) == "/user/error"
    ensures MatchRoute(UserRoutes[1], "GET", PathOf(uri)) == Some(map["name" := "error"])
    ensures Dispatch(Tables(UserRoutes, ""), "GET", uri).0 == Matched(0, map[], Stopped(1))
  {
    var path := PathOf(uri);
    var v := "error";
    ErrorWord();
    NameRouteMatches(v);
    ErrorRouteMatches(path);
    assert FirstMatch(UserRoutes, "GET", path, 0) == Some((0, map[]));
    HandlerChainStops(ErrorHandler, uri);
  }

  lemma ErrorWord()
    ensures "/user/error" == "/user/" + "error" && "/user/error"[6..] == "error"
    ensures IsWord("error")
  {
    var v := "error";
    forall i | 0 <= i < |v| ensures IsWordChar(v[i]) {
      assert 'a' <= v[i] <= 'z';
    }
  }

  /**
   * `GET /user/<word>?<query>` runs the `/:name` handler with `name` bound to the word,
   * for every word but `error`: the query string plays no part in routing.
   */
  lemma UserWordDispatch(v: string, q: string)
    requires v != [] && IsWord(v) && v != "error"
    ensures Dispatch(Tables(UserRoutes, ""), "GET", "/user/" + v + "?" + q).0 == Matched(1, map["name" := v], Stopped(1))
  {
    var path := "/user/" + v;
    var uri := path + "?" + q;
    assert '?' !in path by {
      forall i | 0 <= i < |path| ensures path[i] != '?' {
        if i >= 6 { assert path[i] == v[i - 6] && IsWordChar(v[i - 6]); }
      }
    }
    PathOfQuery(path, q);
    assert path[6..] == v;
    ErrorWord();
    assert path != "/user/error";
    NameRouteMatches(v);
    ErrorRouteMatches(path);
    assert FirstMatch(UserRoutes, "GET", path, 2) == None;
    assert FirstMatch(UserRoutes, "GET", path, 1) == Some((1, map["name" := v]));
    assert FirstMatch(UserRoutes, "GET", path, 0) == Some((1, map["name" := v]));
    HandlerChainStops(NameHandler, uri);
  }

  /** No route matches a `POST` request, whatever its URI: only routes of the request method are tried. */
  lemma OtherMethodNotFound(uri: string)
    ensures Dispatch(Tables(UserRoutes, ""), "POST", uri).0 == NotFound
  {
    assert Upper("get") == "GET";
  }
}

=== FILE: group_router.dfy ===
/**
 * The group/middleware/status router (class Route): GET and POST routes with `<name>`
 * placeholders, groups that extend a namespace prefix while their body runs,
 * middleware scoped to the url of the declaration just before it, a table of status
 * handlers, and dispatch of one request to the first matching route, guarded by the
 * middleware that applies to it.
 *
 * Callbacks are data, as in the Express-style router: a closure is the script of
 * declarations it performs when called, followed by whether it returns exactly
 * `false`; a string is a "path/Class@method" reference, which returns nothing; a
 * boolean returns itself; anything else cannot be called. `Verdict` says what a call
 * returns or raises and `CallbackTables` what it leaves in the router's tables.
 */
module GroupRouter {
  import opened Options
  import opened Pattern
  import ClassRef

  datatype Callback =
    | Closure(decls: seq<Decl>, returnsFalse: bool)
    | Named(ref: string)
    | Flag(b: bool)
    | Unsupported

  /** A declaration a closure performs: `Route::get`, `post`, `middleware`, `group` or `status`. */
  datatype Decl =
    | GetDecl(url: string, callback: Callback)
    | PostDecl(url: string, callback: Callback)
    | MiddlewareDecl(callback: Callback, code: Option<int>)
    | GroupDecl(url: string, callback: Callback)
    | StatusDecl(statusCode: int, callback: Callback)

  datatype RouteRec = RouteRec(verb: string, url: string, callback: Callback)

  /** A middleware entry; `code` is the status to end with when it denies, if any. */
  datatype MiddlewareRec = MiddlewareRec(url: string, callback: Callback, code: Option<int>)

  /** The exceptions `call` and `loadClass` raise. */
  datatype Error = CannotCall | CannotLoadClass

  /** The three updates of the namespace: extend `current`, remove from it, set `last`. */
  datatype NamespaceCase = Next | Prev | Last

  /** The router's static state. */
  datatype Tables = Tables(
    routes: seq<RouteRec>,
    middlewares: seq<MiddlewareRec>,
    status: map<int, Callback>,
    current: string,
    last: string)

  /** One request: method, URI, and the query, body and file parameters, as the host reports them. */
  datatype Request = Request(
    verb: string,
    uri: string,
    query: map<string, string>,
    body: map<string, string>,
    files: map<string, string>)

  /**
   * The one terminal action of a dispatch: route `route` ran with `args`; the status
   * handler registered for `code` ran; the bare response code `code` was set; or an
   * exception escaped.
   */
  datatype Outcome =
    | Served(route: nat, args: map<string, string>)
    | Handled(code: int)
    | Bare(code: int)
    | Raised(error: Error)

  /**
   * How the middleware of a route decided: all allowed it; middleware `at` denied it;
   * middleware `at` denied it with a code, which ended dispatch with `handleStatus(code)`;
   * or calling middleware `at` raised.
   */
  datatype Access =
    | Granted
    | Denied(at: nat)
    | Exited(at: nat, code: int, handled: Outcome)
    | Failed(at: nat, error: Error)

  // ---------------------------------------------------------------------------
  // Strings
  // ---------------------------------------------------------------------------

  /** `strpos(s, t) !== false`: `t` occurs somewhere in `s` (the empty string occurs everywhere). */
  function Contains(s: string, t: string): (b: bool)
    ensures b <==> exists k :: 0 <= k <= |s| && t <= s[k..]
    decreases |s|
  {
    if t <= s then
      assert t <= s[0..];
      true
    else if s == [] then false
    else
      var b := Contains(s[1..], t);
      assert forall k :: 1 <= k <= |s| ==> s[k..] == s[1..][k - 1..];
      b
  }

  predicate OccursAt(s: string, q: string, k: nat) {
    k + |q| <= |s| && s[k..k + |q|] == q
  }

  /**
   * `str_replace(q, '', s)`: removes the occurrences of `q` found scanning `s` from the
   * left, each search resuming after the last removal; an empty `q` changes nothing.
   */
  function RemoveAll(s: string, q: string): (r: string)
    ensures |r| <= |s|
    decreases |s|
  {
    if q == [] || |s| < |q| then s
    else if s[..|q|] == q then RemoveAll(s[|q|..], q)
    else [s[0]] + RemoveAll(s[1..], q)
  }

  /** A string where `q` does not occur is left unchanged. */
  lemma {:induction false} RemoveAllAbsent(s: string, q: string)
    requires q != [] && forall k :: 0 <= k < |s| ==> !OccursAt(s, q, k)
    ensures RemoveAll(s, q) == s
    decreases |s|
  {
    if |q| <= |s| {
      assert !OccursAt(s, q, 0);
      assert s[0..|q|] == s[..|q|];
      AbsentTail(s, q);
      RemoveAllAbsent(s[1..], q);
      assert s == [s[0]] + s[1..];
    }
  }

  /** A string that does not contain `q` has a tail that does not contain it either. */
  lemma AbsentTail(s: string, q: string)
    requires s != [] && forall k :: 0 <= k < |s| ==> !OccursAt(s, q, k)
    ensures forall k :: 0 <= k < |s| - 1 ==> !OccursAt(s[1..], q, k)
  {
    forall k | 0 <= k < |s| - 1
      ensures !OccursAt(s[1..], q, k)
    {
      OccursAtTail(s, q, k);
    }
  }

  /** An occurrence in the tail of a string is an occurrence one place later in it. */
  lemma OccursAtTail(s: string, q: string, k: nat)
    requires s != []
    ensures OccursAt(s[1..], q, k) ==> OccursAt(s, q, k + 1)
  {
    if k + |q| <= |s[1..]| {
      assert s[1..][k..k + |q|] == s[k + 1..k + 1 + |q|];
    }
  }

  /**
   * Appending `q` and removing it gives the string back, provided `q` occurs in
   * `p + q` only at its end.
   */
  lemma {:induction false} RemoveAllRestores(p: string, q: string)
    requires forall k :: 0 <= k < |p| ==> !OccursAt(p + q, q, k)
    ensures RemoveAll(p + q, q) == p
    decreases |p|
  {
    if q == [] {
      assert p + q == p;
    } else if p == [] {
      assert p + q == q && q[..|q|] == q && q[|q|..] == [];
    } else {
      var s := p + q;
      assert !OccursAt(s, q, 0);
      assert s[0..|q|] == s[..|q|];
      assert s[1..] == p[1..] + q;
      forall k | 0 <= k < |p[1..]|
        ensures !OccursAt(p[1..] + q, q, k)
      {
        assert !OccursAt(s, q, k + 1);
        assert (p[1..] + q)[k..k + |q|] == s[k + 1..k + 1 + |q|];
      }
      RemoveAllRestores(p[1..], q);
      assert p == [p[0]] + p[1..];
    }
  }

  /** A group nested in a group of the same url empties the prefix instead of restoring it. */
  lemma NestedSameUrlEmpties()
    ensures RemoveAll("/a" + "/a", "/a") == ""
  {
    var s := "/a" + "/a";
    assert s[..2] == "/a" && s[2..] == "/a";
    assert s[2..][..2] == "/a" && s[2..][2..] == "";
  }

  /** A url absent from the enclosing prefix can still be removed from inside it. */
  lemma AbsentUrlStillLost()
    ensures !Contains("ab", "aba")
    ensures RemoveAll("ab" + "aba", "aba") == "ba"
  {
    var s := "ab" + "aba";
    assert s == "ababa";
    assert s[..3] == "aba" && s[3..] == "ba";
    assert RemoveAll("ba", "aba") == "ba";
  }

  /** `baaba` does not occur in `ababa/x`. */
  lemma OverlapAbsent()
    ensures !Contains("ababa/x", "baaba")
  {
    var s := "ababa/x";
    var t := "baaba";
    forall k | 0 <= k <= |s|
      ensures !(t <= s[k..])
    {
      if k + |t| <= |s| {
        assert s[k..][0] != t[0] || s[k..][2] != t[2];
      }
    }
  }

  // ---------------------------------------------------------------------------
  // What a call returns or raises (independent of the tables)
  // ---------------------------------------------------------------------------

  /**
   * The result of `call` on one callback: `Ok(f)` when it returns, where `f` says
   * whether the value returned is exactly `false`, or the exception it raises.
   */
  function Verdict(cb: Callback): Result<bool, Error>
    decreases cb, 0
  {
    match cb
    case Closure(decls, returnsFalse) =>
      (match BodyError(decls, 0) case Some(e) => Err(e) case None => Ok(returnsFalse))
    case Named(ref) => if ClassRef.Parse(ref).Err? then Err(CannotLoadClass) else Ok(false)
    case Flag(b) => Ok(!b)
    case Unsupported => Err(CannotCall)
  }

  /** The first exception raised by the declarations `decls[j..]` of a closure body. */
  function BodyError(decls: seq<Decl>, j: nat): Option<Error>
    requires j <= |decls|
    decreases decls, |decls| - j
  {
    if j == |decls| then None
    else match DeclError(decls[j])
      case Some(e) => Some(e)
      case None => BodyError(decls, j + 1)
  }

  /** Only a group raises: when its body does. */
  function DeclError(d: Decl): Option<Error>
    decreases d, 0
  {
    match d
    case GroupDecl(_, cb) => (match Verdict(cb) case Err(e) => Some(e) case Ok(_) => None)
    case GetDecl(_, _) => None
    case PostDecl(_, _) => None
    case MiddlewareDecl(_, _) => None
    case StatusDecl(_, _) => None
  }

  // ---------------------------------------------------------------------------
  // What a call leaves in the tables
  // ---------------------------------------------------------------------------

  function CallbackTables(cb: Callback, st: Tables): Tables
    decreases cb, 0
  {
    match cb
    case Closure(decls, _) => BodyTables(decls, 0, st)
    case Named(_) => st
    case Flag(_) => st
    case Unsupported => st
  }

  /** The tables after the declarations `decls[j..]`, which stop at the first exception. */
  function BodyTables(decls: seq<Decl>, j: nat, st: Tables): Tables
    requires j <= |decls|
    decreases decls, |decls| - j
  {
    if j == |decls| then st
    else
      var st1 := DeclTables(decls[j], st);
      if DeclError(decls[j]).Some? then st1 else BodyTables(decls, j + 1, st1)
  }

  /** `namespace(case, level)`. */
  function NamespaceTables(c: NamespaceCase, level: string, st: Tables): Tables {
    match c
    case Next => st.(current := st.current + level)
    case Prev => st.(current := RemoveAll(st.current, level))
    case Last => st.(last := level)
  }

  /** `addRoute`: the route gets the current prefix, and `last` the url as written. */
  function RouteTables(verb: string, url: string, cb: Callback, st: Tables): Tables {
    NamespaceTables(Last, url, st.(routes := st.routes + [RouteRec(verb, st.current + url, cb)]))
  }

  function DeclTables(d: Decl, st: Tables): Tables
    decreases d, 0
  {
    match d
    case GetDecl(url, cb) => RouteTables("GET", url, cb, st)
    case PostDecl(url, cb) => RouteTables("POST", url, cb, st)
    case MiddlewareDecl(cb, code) =>
      st.(middlewares := st.middlewares + [MiddlewareRec(st.current + st.last, cb, code)])
    case GroupDecl(url, cb) =>
      var st1 := CallbackTables(cb, NamespaceTables(Next, url, st));
      if Verdict(cb).Err? then st1
      else NamespaceTables(Last, url, NamespaceTables(Prev, url, st1))
    case StatusDecl(code, cb) => st.(status := st.status[code := cb])
  }

  // ---------------------------------------------------------------------------
  // Dispatch
  // ---------------------------------------------------------------------------

  /** `handleStatus(code)`: the registered handler runs if there is one, else the bare code is set. */
  function StatusRun(code: int, st: Tables): (r: (Outcome, Tables))
    ensures !r.0.Served?
    ensures r.0 == Bare(code) <==> code !in st.status
  {
    if code !in st.status then (Bare(code), st)
    else
      var h := st.status[code];
      (match Verdict(h) case Err(e) => Raised(e) case Ok(_) => Handled(code), CallbackTables(h, st))
  }

  /** The middleware that applies to a route url: those whose url occurs in it, in registration order. */
  function Applicable(ms: seq<MiddlewareRec>, url: string): (r: seq<MiddlewareRec>)
    ensures |r| <= |ms|
    ensures forall m :: m in r <==> m in ms && Contains(url, m.url)
  {
    if ms == [] then []
    else (if Contains(url, ms[0].url) then [ms[0]] else []) + Applicable(ms[1..], url)
  }

  /**
   * Applicable middleware keeps registration order and multiplicity: registering one
   * more middleware appends it to the applicable list exactly when its url occurs in
   * the route url.
   */
  lemma {:induction false} ApplicableSnoc(ms: seq<MiddlewareRec>, m: MiddlewareRec, url: string)
    ensures Applicable([], url) == []
    ensures Applicable(ms + [m], url) == Applicable(ms, url) + (if Contains(url, m.url) then [m] else [])
    decreases |ms|
  {
    if ms == [] {
      assert ms + [m] == [m];
      assert Applicable([m], url) == (if Contains(url, m.url) then [m] else []) + Applicable([], url);
    } else {
      var head := if Contains(url, ms[0].url) then [ms[0]] else [];
      var tail := if Contains(url, m.url) then [m] else [];
      assert (ms + [m])[0] == ms[0] && (ms + [m])[1..] == ms[1..] + [m];
      assert Applicable(ms + [m], url) == head + Applicable(ms[1..] + [m], url);
      ApplicableSnoc(ms[1..], m, url);
      var rest := Applicable(ms[1..], url);
      assert Applicable(ms + [m], url) == head + (rest + tail);
      assert Applicable(ms, url) == head + rest;
      ConcatAssoc(head, rest, tail);
    }
  }

  lemma ConcatAssoc(a: seq<MiddlewareRec>, b: seq<MiddlewareRec>, c: seq<MiddlewareRec>)
    ensures a + (b + c) == a + b + c
  {
  }

  /** A middleware code ends dispatch when it is truthy: present and non-zero. */
  predicate Truthy(code: Option<int>) {
    code.Some? && code.value != 0
  }

  /** `getAccess` on `ms[i..]`: call each in order until one returns exactly `false`. */
  function AccessRun(ms: seq<MiddlewareRec>, i: nat, st: Tables): (Access, Tables)
    requires i <= |ms|
    decreases |ms| - i
  {
    if i == |ms| then (Granted, st)
    else
      var st1 := CallbackTables(ms[i].callback, st);
      match Verdict(ms[i].callback)
      case Err(e) => (Failed(i, e), st1)
      case Ok(isFalse) =>
        if !isFalse then AccessRun(ms, i + 1, st1)
        else if Truthy(ms[i].code) then
          var (o, st2) := StatusRun(ms[i].code.value, st1);
          (Exited(i, ms[i].code.value, o), st2)
        else (Denied(i), st1)
  }

  /**
   * `array_merge(params, query, body, files)` on string keys: every key of any source,
   * the value from the last source that has it.
   */
  function MergeArgs(params: map<string, string>, req: Request): (m: map<string, string>)
    ensures forall k :: k in m <==> k in params || k in req.query || k in req.body || k in req.files
    ensures forall k :: k in req.files ==> m[k] == req.files[k]
    ensures forall k :: k in req.body && k !in req.files ==> m[k] == req.body[k]
    ensures forall k :: k in req.query && k !in req.body && k !in req.files ==> m[k] == req.query[k]
    ensures forall k :: k in params && k !in req.query && k !in req.body && k !in req.files ==> m[k] == params[k]
  {
    params + req.query + req.body + req.files
  }

  /** `loadRoute`: the route runs with the merged arguments if its middleware grants access, else 403. */
  function LoadRun(k: nat, route: RouteRec, params: map<string, string>, req: Request, st: Tables): (Outcome, Tables) {
    var (a, st1) := AccessRun(Applicable(st.middlewares, route.url), 0, st);
    match a
    case Granted =>
      var args := MergeArgs(params, req);
      (match Verdict(route.callback) case Err(e) => Raised(e) case Ok(_) => Served(k, args),
       CallbackTables(route.callback, st1))
    case Denied(_) => StatusRun(403, st1)
    case Exited(_, _, o) => (o, st1)
    case Failed(_, e) => (Raised(e), st1)
  }

  /** The parameters a route binds for a request, if its method is the request's and its whole template matches. */
  function MatchRoute(r: RouteRec, verb: string, path: string): Option<map<string, string>> {
    var toks := CompileAngle(r.url);
    if r.verb != verb then None
    else match MatchFrom(toks, path, false, true)
      case None => None
      case Some(caps) =>
        MatchSound(toks, path, false, true);
        SpellsArity(toks, caps, path, false, true);
        Some(Bind(Names(toks), caps))
  }

  /** The first route at or after `i` that matches, with the parameters it binds. */
  function FirstMatch(routes: seq<RouteRec>, verb: string, path: string, i: nat): (r: Option<(nat, map<string, string>)>)
    requires i <= |routes|
    ensures r.Some? ==> i <= r.value.0 < |routes| && MatchRoute(routes[r.value.0], verb, path) == Some(r.value.1)
    ensures r.Some? ==> forall j :: i <= j < r.value.0 ==> MatchRoute(routes[j], verb, path).None?
    ensures r.None? ==> forall j :: i <= j < |routes| ==> MatchRoute(routes[j], verb, path).None?
    decreases |routes| - i
  {
    if i == |routes| then None
    else match MatchRoute(routes[i], verb, path)
      case Some(ps) => Some((i, ps))
      case None => FirstMatch(routes, verb, path, i + 1)
  }

  /** `run`: the first matching route is loaded; otherwise `handleStatus(404)`. */
  function Dispatch(st: Tables, req: Request): (Outcome, Tables) {
    match FirstMatch(st.routes, req.verb, PathOf(req.uri), 0)
    case None => StatusRun(404, st)
    case Some((k, ps)) => LoadRun(k, st.routes[k], ps, req, st)
  }

  // ---------------------------------------------------------------------------
  // The router
  // ---------------------------------------------------------------------------

  class Route {
    /** The request being served, as the host reports it. */
    const request: Request
    var routes: seq<RouteRec>
    var middlewares: seq<MiddlewareRec>
    var status: map<int, Callback>
    var current: string
    var last: string

    function State(): Tables
      reads this
    {
      Tables(routes, middlewares, status, current, last)
    }

    constructor (request: Request)
      ensures this.request == request
      ensures State() == Tables([], [], map[], "", "")
    {
      this.request := request;
      routes := [];
      middlewares := [];
      status := map[];
      current := "";
      last := "";
    }

    /** `namespace(case, level)`: `Next` appends to `current`, `Prev` removes from it, `Last` sets `last`. */
    method Namespace(c: NamespaceCase, level: string)
      modifies this
      ensures State() == NamespaceTables(c, level, old(State()))
    {
      match c
      case Next => current := current + level;
      case Prev => current := RemoveAll(current, level);
      case Last => last := level;
    }

    method AddRoute(verb: string, url: string, cb: Callback)
      modifies this
      ensures State() == RouteTables(verb, url, cb, old(State()))
    {
      routes := routes + [RouteRec(verb, current + url, cb)];
      Namespace(Last, url);
    }

    method Get(url: string, cb: Callback)
      modifies this
      ensures State() == DeclTables(GetDecl(url, cb), old(State()))
    {
      AddRoute("GET", url, cb);
    }

    method Post(url: string, cb: Callback)
      modifies this
      ensures State() == DeclTables(PostDecl(url, cb), old(State()))
    {
      AddRoute("POST", url, cb);
    }

    /** Appends a middleware scoped to `current + last`: the url of the declaration just before it. */
    method Middleware(cb: Callback, code: Option<int>)
      modifies this
      ensures State() == DeclTables(MiddlewareDecl(cb, code), old(State()))
    {
      middlewares := middlewares + [MiddlewareRec(current + last, cb, code)];
    }

    /**
     * `group(url, body)`: runs the body with `url` appended to `current`, then removes
     * every occurrence of `url` from `current` and sets `last` to `url`. An exception
     * from the body propagates and leaves `url` appended.
     */
    method Group(url: string, cb: Callback) returns (err: Option<Error>)
      modifies this
      decreases cb, 2
      ensures err == DeclError(GroupDecl(url, cb))
      ensures State() == DeclTables(GroupDecl(url, cb), old(State()))
    {
      Namespace(Next, url);
      var v := Call(cb);
      if v.Err? {
        return Some(v.error);
      }
      Namespace(Prev, url);
      Namespace(Last, url);
      err := None;
    }

    /** Registers `cb` as the handler of `code`, replacing any earlier one. */
    method Status(code: int, cb: Callback)
      modifies this
      ensures State() == DeclTables(StatusDecl(code, cb), old(State()))
    {
      status := status[code := cb];
    }

    /** `call`: a closure runs its body, a string goes through `loadClass`, a boolean returns itself. */
    method Call(cb: Callback) returns (v: Result<bool, Error>)
      modifies this
      decreases cb, 1
      ensures v == Verdict(cb)
      ensures State() == CallbackTables(cb, old(State()))
    {
      match cb
      case Closure(decls, returnsFalse) =>
        var err := RunBody(decls);
        v := if err.Some? then Err(err.value) else Ok(returnsFalse);
      case Named(ref) =>
        v := if ClassRef.Parse(ref).Err? then Err(CannotLoadClass) else Ok(false);
      case Flag(b) =>
        v := Ok(!b);
      case Unsupported =>
        v := Err(CannotCall);
    }

    /** The body of a closure: its declarations in order, until one raises. */
    method RunBody(decls: seq<Decl>) returns (err: Option<Error>)
      modifies this
      decreases decls, 1
      ensures err == BodyError(decls, 0)
      ensures State() == BodyTables(decls, 0, old(State()))
    {
      var j := 0;
      while j < |decls|
        invariant 0 <= j <= |decls|
        invariant BodyError(decls, 0) == BodyError(decls, j)
        invariant BodyTables(decls, 0, old(State())) == BodyTables(decls, j, State())
      {
        var e := Declare(decls[j]);
        if e.Some? {
          return e;
        }
        j := j + 1;
      }
      err := None;
    }

    method Declare(d: Decl) returns (err: Option<Error>)
      modifies this
      decreases d, 1
      ensures err == DeclError(d)
      ensures State() == DeclTables(d, old(State()))
    {
      match d
      case GetDecl(url, cb) =>
        Get(url, cb);
        err := None;
      case PostDecl(url, cb) =>
        Post(url, cb);
        err := None;
      case MiddlewareDecl(cb, code) =>
        Middleware(cb, code);
        err := None;
      case GroupDecl(url, cb) =>
        err := Group(url, cb);
      case StatusDecl(code, cb) =>
        Status(code, cb);
        err := None;
    }

    method HandleStatus(code: int) returns (o: Outcome)
      modifies this
      ensures (o, State()) == StatusRun(code, old(State()))
    {
      if code !in status {
        return Bare(code);
      }
      var v := Call(status[code]);
      o := if v.Err? then Raised(v.error) else Handled(code);
    }

    /** `getAccess(url)`: the applicable middleware, called in order until one returns exactly `false`. */
    method GetAccess(url: string) returns (a: Access)
      modifies this
      ensures (a, State()) == AccessRun(Applicable(old(middlewares), url), 0, old(State()))
    {
      var ms := Applicable(middlewares, url);
      var i := 0;
      while i < |ms|
        invariant 0 <= i <= |ms|
        invariant AccessRun(ms, 0, old(State())) == AccessRun(ms, i, State())
      {
        var v := Call(ms[i].callback);
        match v
        case Err(e) =>
          return Failed(i, e);
        case Ok(isFalse) =>
          if isFalse {
            if Truthy(ms[i].code) {
              var o := HandleStatus(ms[i].code.value);
              return Exited(i, ms[i].code.value, o);
            }
            return Denied(i);
          }
        i := i + 1;
      }
      a := Granted;
    }

    method LoadRoute(k: nat, route: RouteRec, params: map<string, string>) returns (o: Outcome)
      modifies this
      ensures (o, State()) == LoadRun(k, route, params, request, old(State()))
    {
      var a := GetAccess(route.url);
      match a
      case Granted =>
        var args := MergeArgs(params, request);
        var v := Call(route.callback);
        o := if v.Err? then Raised(v.error) else Served(k, args);
      case Denied(_) =>
        o := HandleStatus(403);
      case Exited(_, _, handled) =>
        o := handled;
      case Failed(_, e) =>
        o := Raised(e);
    }

    /** The search of `run`: the first route, in registration order, that matches the request. */
    method FindRoute(verb: string, path: string) returns (found: Option<(nat, map<string, string>)>)
      ensures found == FirstMatch(routes, verb, path, 0)
    {
      var i := 0;
      while i < |routes|
        invariant 0 <= i <= |routes|
        invariant FirstMatch(routes, verb, path, 0) == FirstMatch(routes, verb, path, i)
      {
        var ps := MatchRoute(routes[i], verb, path);
        if ps.Some? {
          return Some((i, ps.value));
        }
        i := i + 1;
      }
      found := None;
    }

    /** `run`: exactly one terminal action, the first matching route or the 404 handling. */
    method Run() returns (o: Outcome)
      modifies this
      ensures (o, State()) == Dispatch(old(State()), request)
    {
      var found := FindRoute(request.verb, PathOf(request.uri));
      match found
      case None =>
        o := HandleStatus(404);
      case Some((k, ps)) =>
        o := LoadRoute(k, routes[k], ps);
    }
  }

  // ---------------------------------------------------------------------------
  // Properties
  // ---------------------------------------------------------------------------

  /**
   * Access is granted iff no applicable middleware returns exactly `false` (or raises);
   * otherwise evaluation stops at the first that does, and later ones are not called.
   * With a truthy code that middleware ends dispatch with its code; without one it denies.
   */
  lemma {:induction false} AccessDecides(ms: seq<MiddlewareRec>, i: nat, st: Tables)
    requires i <= |ms|
    ensures var a := AccessRun(ms, i, st).0;
      (a.Granted? <==> forall k :: i <= k < |ms| ==> Verdict(ms[k].callback) == Ok(false))
      && (!a.Granted? ==> i <= a.at < |ms| && forall k :: i <= k < a.at ==> Verdict(ms[k].callback) == Ok(false))
      && (a.Denied? ==> Verdict(ms[a.at].callback) == Ok(true) && !Truthy(ms[a.at].code))
      && (a.Exited? ==> Verdict(ms[a.at].callback) == Ok(true) && ms[a.at].code == Some(a.code) && a.code != 0)
      && (a.Exited? ==> a.handled == Handled(a.code) || a.handled == Bare(a.code) || a.handled.Raised?)
      && (a.Failed? ==> Verdict(ms[a.at].callback) == Err(a.error))
    decreases |ms| - i
  {
    if i < |ms| && Verdict(ms[i].callback) == Ok(false) {
      AccessDecides(ms, i + 1, CallbackTables(ms[i].callback, st));
    }
  }

  /** `middleware(false, code)` denies every route it applies to. */
  lemma FalseMiddlewareDenies(ms: seq<MiddlewareRec>, k: nat, st: Tables)
    requires k < |ms| && ms[k].callback == Flag(false)
    ensures !AccessRun(ms, 0, st).0.Granted?
  {
    AccessDecides(ms, 0, st);
  }

  /** Class-reference middleware never denies: access ends granted or with the loading error. */
  lemma NamedMiddlewareNeverDenies(ms: seq<MiddlewareRec>, st: Tables)
    requires forall k :: 0 <= k < |ms| ==> ms[k].callback.Named?
    ensures var a := AccessRun(ms, 0, st).0;
      a.Granted? || a == Failed(a.at, CannotLoadClass)
  {
    NamedAccessFrom(ms, 0, st);
  }

  lemma {:induction false} NamedAccessFrom(ms: seq<MiddlewareRec>, i: nat, st: Tables)
    requires i <= |ms| && forall k :: 0 <= k < |ms| ==> ms[k].callback.Named?
    ensures var a := AccessRun(ms, i, st).0;
      a.Granted? || a == Failed(a.at, CannotLoadClass)
    decreases |ms| - i
  {
    if i < |ms| {
      var cb := ms[i].callback;
      assert CallbackTables(cb, st) == st;
      if Verdict(cb) == Ok(false) {
        NamedAccessFrom(ms, i + 1, st);
      } else {
        assert Verdict(cb) == Err(CannotLoadClass);
      }
    }
  }

  /**
   * Among any middleware, a class reference never denies and never ends dispatch with
   * its code: the middleware that does is never a class reference, and one that raises
   * as a class reference raises the loading error.
   */
  lemma NamedMiddlewareNeverStops(ms: seq<MiddlewareRec>, st: Tables)
    ensures var a := AccessRun(ms, 0, st).0;
      (a.Denied? || a.Exited?) ==> a.at < |ms| && !ms[a.at].callback.Named?
    ensures var a := AccessRun(ms, 0, st).0;
      a.Failed? && a.at < |ms| && ms[a.at].callback.Named? ==> a.error == CannotLoadClass
  {
    AccessDecides(ms, 0, st);
  }

  /** No middleware of `ms` returns exactly `false` or raises. */
  predicate LetThrough(ms: seq<MiddlewareRec>) {
    forall k :: 0 <= k < |ms| ==> Verdict(ms[k].callback) == Ok(false)
  }

  /**
   * `loadRoute` runs the route iff every applicable middleware lets it through and its
   * callback does not raise; it then runs with the merged parameters.
   */
  lemma LoadServedIff(k: nat, route: RouteRec, params: map<string, string>, req: Request, st: Tables)
    ensures var o := LoadRun(k, route, params, req, st).0;
      (o.Served? <==> LetThrough(Applicable(st.middlewares, route.url)) && Verdict(route.callback).Ok?)
      && (o.Served? ==> o == Served(k, MergeArgs(params, req)))
  {
    var ms := Applicable(st.middlewares, route.url);
    AccessDecides(ms, 0, st);
    var acc := AccessRun(ms, 0, st);
    assert acc.0.Granted? <==> LetThrough(ms);
    assert LoadRun(k, route, params, req, st).0.Served? <==> acc.0.Granted? && Verdict(route.callback).Ok?;
  }

  /**
   * A request is served iff its first matching route exists, every applicable middleware
   * lets it through and the route's callback does not raise; it then runs with the
   * route's parameters merged with the query, body and file parameters.
   */
  lemma ServedIff(st: Tables, req: Request)
    ensures var f := FirstMatch(st.routes, req.verb, PathOf(req.uri), 0);
      var o := Dispatch(st, req).0;
      o.Served? <==>
        f.Some?
        && LetThrough(Applicable(st.middlewares, st.routes[f.value.0].url))
        && Verdict(st.routes[f.value.0].callback).Ok?
    ensures var f := FirstMatch(st.routes, req.verb, PathOf(req.uri), 0);
      Dispatch(st, req).0.Served? ==> Dispatch(st, req).0 == Served(f.value.0, MergeArgs(f.value.1, req))
  {
    var f := FirstMatch(st.routes, req.verb, PathOf(req.uri), 0);
    if f.Some? {
      LoadServedIff(f.value.0, st.routes[f.value.0], f.value.1, req, st);
    }
  }

  /** When the middleware denies without a code, the outcome is `handleStatus(403)` and the route does not run. */
  lemma DeniedIs403(st: Tables, req: Request)
    requires FirstMatch(st.routes, req.verb, PathOf(req.uri), 0).Some?
    requires var k := FirstMatch(st.routes, req.verb, PathOf(req.uri), 0).value.0;
      AccessRun(Applicable(st.middlewares, st.routes[k].url), 0, st).0.Denied?
    ensures var k := FirstMatch(st.routes, req.verb, PathOf(req.uri), 0).value.0;
      var acc := AccessRun(Applicable(st.middlewares, st.routes[k].url), 0, st);
      Dispatch(st, req) == StatusRun(403, acc.1)
    ensures Dispatch(st, req).0 == Bare(403) || Dispatch(st, req).0 == Handled(403) || Dispatch(st, req).0.Raised?
  {
  }

  /**
   * When an applicable middleware ends dispatch with its code, the outcome is that
   * code's handling and the route does not run.
   */
  lemma ExitedEndsDispatch(st: Tables, req: Request)
    requires FirstMatch(st.routes, req.verb, PathOf(req.uri), 0).Some?
    requires var k := FirstMatch(st.routes, req.verb, PathOf(req.uri), 0).value.0;
      AccessRun(Applicable(st.middlewares, st.routes[k].url), 0, st).0.Exited?
    ensures var k := FirstMatch(st.routes, req.verb, PathOf(req.uri), 0).value.0;
      var ms := Applicable(st.middlewares, st.routes[k].url);
      var acc := AccessRun(ms, 0, st);
      Dispatch(st, req) == (acc.0.handled, acc.1)
      && acc.0.at < |ms| && ms[acc.0.at].code == Some(acc.0.code) && acc.0.code != 0
      && (acc.0.handled == Handled(acc.0.code) || acc.0.handled == Bare(acc.0.code) || acc.0.handled.Raised?)
  {
    var k := FirstMatch(st.routes, req.verb, PathOf(req.uri), 0).value.0;
    AccessDecides(Applicable(st.middlewares, st.routes[k].url), 0, st);
  }

  /** When no route matches, the outcome is `handleStatus(404)` and no route runs. */
  lemma NotFoundIs404(st: Tables, req: Request)
    requires FirstMatch(st.routes, req.verb, PathOf(req.uri), 0).None?
    ensures Dispatch(st, req) == StatusRun(404, st)
    ensures 404 !in st.status ==> Dispatch(st, req) == (Bare(404), st)
  {
  }

  /** Registering a handler for a code replaces the earlier one, and only for that code. */
  lemma StatusReplaces(c: int, h1: Callback, h2: Callback, st: Tables)
    ensures DeclTables(StatusDecl(c, h2), DeclTables(StatusDecl(c, h1), st)) == DeclTables(StatusDecl(c, h2), st)
    ensures var st2 := DeclTables(StatusDecl(c, h2), st);
      StatusRun(c, st2) == (if Verdict(h2).Err? then Raised(Verdict(h2).error) else Handled(c), CallbackTables(h2, st2))
    ensures forall d :: d != c ==> StatusRun(d, DeclTables(StatusDecl(c, h2), st)).0 == StatusRun(d, st).0
  {
    assert st.status[c := h1][c := h2] == st.status[c := h2];
  }

  /**
   * Declarations only append: the route and middleware lists keep their earlier
   * entries, and no status code loses its handler.
   */
  lemma {:induction false} DeclGrows(d: Decl, st: Tables)
    ensures var st1 := DeclTables(d, st);
      st.routes <= st1.routes && st.middlewares <= st1.middlewares && st.status.Keys <= st1.status.Keys
    decreases d, 0
  {
    match d
    case GroupDecl(url, cb) => CallbackGrows(cb, NamespaceTables(Next, url, st));
    case GetDecl(_, _) =>
    case PostDecl(_, _) =>
    case MiddlewareDecl(_, _) =>
    case StatusDecl(_, _) =>
  }

  lemma {:induction false} CallbackGrows(cb: Callback, st: Tables)
    ensures var st1 := CallbackTables(cb, st);
      st.routes <= st1.routes && st.middlewares <= st1.middlewares && st.status.Keys <= st1.status.Keys
    decreases cb, 0
  {
    match cb
    case Closure(decls, _) => BodyGrows(decls, 0, st);
    case Named(_) =>
    case Flag(_) =>
    case Unsupported =>
  }

  lemma {:induction false} BodyGrows(decls: seq<Decl>, j: nat, st: Tables)
    requires j <= |decls|
    ensures var st1 := BodyTables(decls, j, st);
      st.routes <= st1.routes && st.middlewares <= st1.middlewares && st.status.Keys <= st1.status.Keys
    decreases decls, |decls| - j
  {
    if j < |decls| {
      var st1 := DeclTables(decls[j], st);
      DeclGrows(decls[j], st);
      if DeclError(decls[j]).None? {
        BodyGrows(decls, j + 1, st1);
      }
    }
  }

  /**
   * A group whose body returns, leaves `current` as it found it and occurs in the
   * extended prefix only at its end restores the prefix and sets `last` to its url.
   */
  lemma GroupRestores(url: string, cb: Callback, st: Tables)
    requires Verdict(cb).Ok?
    requires CallbackTables(cb, NamespaceTables(Next, url, st)).current == st.current + url
    requires forall k :: 0 <= k < |st.current| ==> !OccursAt(st.current + url, url, k)
    ensures DeclTables(GroupDecl(url, cb), st).current == st.current
    ensures DeclTables(GroupDecl(url, cb), st).last == url
  {
    var st1 := CallbackTables(cb, NamespaceTables(Next, url, st));
    assert DeclTables(GroupDecl(url, cb), st) == NamespaceTables(Last, url, NamespaceTables(Prev, url, st1));
    RemoveAllRestores(st.current, url);
    assert RemoveAll(st1.current, url) == st.current;
  }

  /** The same group nested in itself: the prefix `/a` is emptied, not restored. */
  lemma NestedGroupLosesPrefix(st: Tables)
    requires st.current == "/a"
    ensures DeclTables(GroupDecl("/a", Closure([], false)), st).current == ""
  {
    NestedSameUrlEmpties();
  }

  /** A body without groups: none of its declarations raises or moves the prefix. */
  predicate Flat(decls: seq<Decl>) {
    forall k :: 0 <= k < |decls| ==> !decls[k].GroupDecl?
  }

  /** The route one declaration adds under `prefix`, if it is a route. */
  function DeclRoute(d: Decl, prefix: string): seq<RouteRec> {
    match d
    case GetDecl(u, cb) => [RouteRec("GET", prefix + u, cb)]
    case PostDecl(u, cb) => [RouteRec("POST", prefix + u, cb)]
    case _ => []
  }

  /** The routes the declarations `decls` add, in order, each with `prefix` before its own url. */
  function DeclaredRoutes(decls: seq<Decl>, prefix: string): (r: seq<RouteRec>)
    ensures forall k :: 0 <= k < |r| ==> prefix <= r[k].url
  {
    if decls == [] then []
    else
      var u := if decls[0].GetDecl? || decls[0].PostDecl? then decls[0].url else "";
      assert prefix <= prefix + u;
      DeclRoute(decls[0], prefix) + DeclaredRoutes(decls[1..], prefix)
  }

  /**
   * A body without groups raises nothing, leaves `current` as it found it and appends
   * exactly the routes it declares, each under the current prefix.
   */
  lemma {:induction false} FlatBody(decls: seq<Decl>, j: nat, st: Tables)
    requires j <= |decls| && Flat(decls)
    ensures BodyError(decls, j) == None
    ensures var st1 := BodyTables(decls, j, st);
      st1.current == st.current && st1.routes == st.routes + DeclaredRoutes(decls[j..], st.current)
    decreases |decls| - j
  {
    if j == |decls| {
      assert decls[j..] == [];
    } else {
      var d := decls[j];
      var st1 := DeclTables(d, st);
      assert DeclError(d) == None;
      assert st1.current == st.current && st1.routes == st.routes + DeclRoute(d, st.current);
      FlatBody(decls, j + 1, st1);
      assert decls[j..][0] == d && decls[j..][1..] == decls[j + 1..];
      assert DeclaredRoutes(decls[j..], st.current) == DeclRoute(d, st.current) + DeclaredRoutes(decls[j + 1..], st.current);
    }
  }

  /**
   * Every route a group body without nested groups declares gets the enclosing prefix,
   * the group url and its own url, in the order declared.
   */
  lemma GroupPrefixesRoute(url: string, decls: seq<Decl>, rf: bool, st: Tables)
    requires Flat(decls)
    ensures var st1 := DeclTables(GroupDecl(url, Closure(decls, rf)), st);
      st1.routes == st.routes + DeclaredRoutes(decls, st.current + url)
      && forall k :: |st.routes| <= k < |st1.routes| ==> st.current + url <= st1.routes[k].url
  {
    var g := Closure(decls, rf);
    var st0 := NamespaceTables(Next, url, st);
    FlatBody(decls, 0, st0);
    assert decls[0..] == decls;
    var st1 := CallbackTables(g, st0);
    assert st1.routes == st.routes + DeclaredRoutes(decls, st.current + url);
    assert DeclTables(GroupDecl(url, g), st) == NamespaceTables(Last, url, NamespaceTables(Prev, url, st1));
  }

  /**
   * With a nested group of the same url first, a later route of the outer group loses
   * the prefix: from an empty prefix, `group('/a', { group('/a', {}); get('/x') })`
   * registers `/x`, not `/a/x`.
   */
  lemma NestedGroupDropsRoutePrefix(h: Callback, rf: bool, st: Tables)
    requires st.current == ""
    ensures var inner := GroupDecl("/a", Closure([], false));
      DeclTables(GroupDecl("/a", Closure([inner, GetDecl("/x", h)], rf)), st).routes
        == st.routes + [RouteRec("GET", "/x", h)]
  {
    var inner := GroupDecl("/a", Closure([], false));
    var body := [inner, GetDecl("/x", h)];
    var st0 := NamespaceTables(Next, "/a", st);
    NestedGroupLosesPrefix(st0);
    var sa := DeclTables(inner, st0);
    assert DeclError(inner) == None;
    assert sa.current == "" && sa.routes == st.routes;
    var sb := DeclTables(GetDecl("/x", h), sa);
    assert sa.current + "/x" == "/x";
    assert sb.routes == st.routes + [RouteRec("GET", "/x", h)];
    assert BodyTables(body, 2, sb) == sb;
    assert BodyTables(body, 1, sa) == sb;
    assert BodyTables(body, 0, st0) == sb;
  }

  /**
   * A middleware is scoped to the current prefix followed by the last url declared, and
   * applies to every route url that starts with that scope.
   */
  lemma MiddlewareScope(cb: Callback, c: Option<int>, st: Tables, rest: string)
    ensures var m := MiddlewareRec(st.current + st.last, cb, c);
      var ms := DeclTables(MiddlewareDecl(cb, c), st).middlewares;
      ms == st.middlewares + [m] && m in Applicable(ms, st.current + st.last + rest)
  {
    var scope := st.current + st.last;
    assert Contains(scope + rest, scope) by {
      assert scope <= (scope + rest)[0..];
    }
  }

  /** A middleware declared right after a route is scoped to that route's url, so it applies to it. */
  lemma MiddlewareFollowsRoute(u: string, h: Callback, cb: Callback, c: Option<int>, st: Tables)
    ensures var st2 := DeclTables(MiddlewareDecl(cb, c), DeclTables(GetDecl(u, h), st));
      var r := RouteRec("GET", st.current + u, h);
      var m := MiddlewareRec(st.current + u, cb, c);
      st2.routes == st.routes + [r] && st2.middlewares == st.middlewares + [m]
      && m in Applicable(st2.middlewares, r.url)
  {
    var r := RouteRec("GET", st.current + u, h);
    var st1 := DeclTables(GetDecl(u, h), st);
    assert st1 == st.(routes := st.routes + [r], last := u);
    var m := MiddlewareRec(st.current + u, cb, c);
    var st2 := DeclTables(MiddlewareDecl(cb, c), st1);
    assert st2 == st1.(middlewares := st.middlewares + [m]);
    assert st1.current + st1.last + [] == r.url;
    MiddlewareScope(cb, c, st1, []);
  }

  /**
   * A middleware declared right after a restoring group is scoped to the group's full
   * url, so it applies to every route url that starts with it.
   */
  lemma MiddlewareFollowsGroup(url: string, cb: Callback, mcb: Callback, c: Option<int>, st: Tables, rest: string)
    requires Verdict(cb).Ok?
    requires CallbackTables(cb, NamespaceTables(Next, url, st)).current == st.current + url
    requires forall k :: 0 <= k < |st.current| ==> !OccursAt(st.current + url, url, k)
    ensures var st1 := DeclTables(GroupDecl(url, cb), st);
      var st2 := DeclTables(MiddlewareDecl(mcb, c), st1);
      var m := MiddlewareRec(st.current + url, mcb, c);
      st2.middlewares == st1.middlewares + [m]
      && m in Applicable(st2.middlewares, st.current + url + rest)
  {
    GroupRestores(url, cb, st);
    MiddlewareScope(mcb, c, DeclTables(GroupDecl(url, cb), st), rest);
  }

  /**
   * After a group whose body has no nested groups, the routes are the body's under
   * `current + url`, and the next middleware is scoped to what `str_replace` leaves of
   * `current + url`, followed by the group url.
   */
  lemma FlatGroupThenMiddleware(url: string, decls: seq<Decl>, rf: bool, mcb: Callback, c: Option<int>, st: Tables)
    requires Flat(decls)
    ensures var st1 := DeclTables(GroupDecl(url, Closure(decls, rf)), st);
      var st2 := DeclTables(MiddlewareDecl(mcb, c), st1);
      st2.routes == st.routes + DeclaredRoutes(decls, st.current + url)
      && st2.middlewares == st1.middlewares + [MiddlewareRec(RemoveAll(st.current + url, url) + url, mcb, c)]
  {
    var g := Closure(decls, rf);
    var st0 := NamespaceTables(Next, url, st);
    FlatBody(decls, 0, st0);
    assert decls[0..] == decls;
    var sb := CallbackTables(g, st0);
    assert sb.current == st.current + url;
    assert sb.routes == st.routes + DeclaredRoutes(decls, st.current + url);
    var st1 := DeclTables(GroupDecl(url, g), st);
    assert st1 == NamespaceTables(Last, url, NamespaceTables(Prev, url, sb));
    assert st1.current + st1.last == RemoveAll(st.current + url, url) + url;
  }

  /**
   * A group whose url also occurs earlier in `current + url` does not restore the
   * prefix, so the next middleware misses the routes of even a flat body: under
   * prefix `ab`, `group('aba', { get('/x') })` registers `ababa/x`, and a middleware
   * declared next gets url `baaba`, which does not occur in it.
   */
  lemma OverlappingGroupMissesRoute(h: Callback, rf: bool, mcb: Callback, c: Option<int>, st: Tables)
    requires st.current == "ab"
    ensures var st1 := DeclTables(GroupDecl("aba", Closure([GetDecl("/x", h)], rf)), st);
      var st2 := DeclTables(MiddlewareDecl(mcb, c), st1);
      var m := MiddlewareRec("baaba", mcb, c);
      st2.routes == st.routes + [RouteRec("GET", "ababa/x", h)]
      && st2.middlewares == st1.middlewares + [m]
      && !Contains("ababa/x", m.url)
  {
    var decls := [GetDecl("/x", h)];
    FlatGroupThenMiddleware("aba", decls, rf, mcb, c, st);
    AbsentUrlStillLost();
    OverlapStrings(h);
    OverlapAbsent();
  }

  lemma OverlapStrings(h: Callback)
    ensures "ba" + "aba" == "baaba"
    ensures DeclaredRoutes([GetDecl("/x", h)], "ab" + "aba") == [RouteRec("GET", "ababa/x", h)]
  {
    var decls := [GetDecl("/x", h)];
    assert decls[1..] == [];
    assert "ab" + "aba" + "/x" == "ababa/x";
  }

  /**
   * A middleware declared right after a group whose body has no nested groups applies
   * to every route that group declared.
   */
  lemma MiddlewareCoversFlatGroup(url: string, decls: seq<Decl>, rf: bool, mcb: Callback, c: Option<int>, st: Tables)
    requires Flat(decls)
    requires forall k :: 0 <= k < |st.current| ==> !OccursAt(st.current + url, url, k)
    ensures var st1 := DeclTables(GroupDecl(url, Closure(decls, rf)), st);
      var st2 := DeclTables(MiddlewareDecl(mcb, c), st1);
      var m := MiddlewareRec(st.current + url, mcb, c);
      st2.routes == st.routes + DeclaredRoutes(decls, st.current + url)
      && forall k :: |st.routes| <= k < |st2.routes| ==> m in Applicable(st2.middlewares, st2.routes[k].url)
  {
    var g := Closure(decls, rf);
    var st0 := NamespaceTables(Next, url, st);
    FlatBody(decls, 0, st0);
    assert Verdict(g) == Ok(rf);
    GroupPrefixesRoute(url, decls, rf, st);
    var st1 := DeclTables(GroupDecl(url, g), st);
    var st2 := DeclTables(MiddlewareDecl(mcb, c), st1);
    var p := st.current + url;
    assert st2.routes == st1.routes;
    forall k | |st.routes| <= k < |st2.routes|
      ensures MiddlewareRec(p, mcb, c) in Applicable(st2.middlewares, st2.routes[k].url)
    {
      var r := st2.routes[k].url;
      assert p <= r;
      assert r == p + r[|p|..];
      MiddlewareFollowsGroup(url, g, mcb, c, st, r[|p|..]);
    }
  }
}

=== FILE: options.dfy ===
/** Optional values and results with an error value, shared by both routers. */
module Options {

  datatype Option<+T> = None | Some(value: T)

  datatype Result<+T, +E> = Ok(value: T) | Err(error: E)
}

=== FILE: pattern.dfy ===
/**
 * URL templates: compilation of `:name` (Router.php) and `<name>` (Route.php)
 * placeholders into tokens, and the regular-expression match that both routers
 * perform with the compiled template.
 *
 * A compiled template is a sequence of tokens. A literal token stands for one
 * character of the template, matched as itself; a placeholder token stands for the
 * capture group `([a-zA-Z0-9_]+)`. `MatchFrom` is the backtracking matcher of that
 * regular expression; `Spells` is an independent, declarative description of when a
 * template with given capture values spells a string.
 */
module Pattern {
  import opened Options

  datatype Token = Lit(c: char) | Param(name: string)

  /** The character class `[a-zA-Z0-9_]`. */
  predicate IsWordChar(c: char) {
    'a' <= c <= 'z' || 'A' <= c <= 'Z' || '0' <= c <= '9' || c == '_'
  }

  predicate IsWord(s: string) {
    forall i :: 0 <= i < |s| ==> IsWordChar(s[i])
  }

  /** Length of the longest run of word characters at the start of `s`. */
  function WordRun(s: string): (n: nat)
    ensures n <= |s| && IsWord(s[..n])
    ensures n < |s| ==> !IsWordChar(s[n])
  {
    if s == [] || !IsWordChar(s[0]) then 0 else 1 + WordRun(s[1..])
  }

  /** Any run of word characters at the start of `s` is at most the longest one. */
  lemma {:induction false} WordPrefixWithinRun(s: string, m: nat)
    requires m <= |s| && IsWord(s[..m])
    ensures m <= WordRun(s)
    decreases m
  {
    if m > 0 {
      assert s[..m][0] == s[0];
      assert s[1..][..m - 1] == s[..m][1..];
      WordPrefixWithinRun(s[1..], m - 1);
    }
  }

  /** The placeholder names of a template, left to right. */
  function Names(toks: seq<Token>): seq<string> {
    if toks == [] then []
    else if toks[0].Param? then [toks[0].name] + Names(toks[1..])
    else Names(toks[1..])
  }

  /** Every placeholder name is a non-empty run of word characters. */
  ghost predicate WellNamed(toks: seq<Token>) {
    forall i :: 0 <= i < |toks| && toks[i].Param? ==> toks[i].name != [] && IsWord(toks[i].name)
  }

  /**
   * Every placeholder is followed by the end of the template or by a literal that is
   * not a word character. Under this condition the greedy capture is the only one.
   */
  ghost predicate Separated(toks: seq<Token>) {
    forall i :: 0 <= i < |toks| && toks[i].Param? ==>
      i + 1 == |toks| || (toks[i + 1].Lit? && !IsWordChar(toks[i + 1].c))
  }

  // ---------------------------------------------------------------------------
  // Compilation of `:name` templates (Router.php)
  // ---------------------------------------------------------------------------

  /**
   * Replaces every `:name` (a colon followed by the longest run of word characters)
   * by a placeholder; a colon not followed by a word character stays literal.
   */
  function CompileColon(t: string): seq<Token>
    decreases |t|
  {
    if t == [] then []
    else if t[0] == ':' && WordRun(t[1..]) > 0 then
      var n := WordRun(t[1..]);
      [Param(t[1..n + 1])] + CompileColon(t[n + 1..])
    else
      [Lit(t[0])] + CompileColon(t[1..])
  }

  /** Writes a token sequence back in `:name` syntax. */
  function RenderColon(toks: seq<Token>): string {
    if toks == [] then ""
    else (match toks[0] case Lit(c) => [c] case Param(name) => ":" + name) + RenderColon(toks[1..])
  }

  lemma RenderColonCons(tok: Token, rest: seq<Token>)
    ensures RenderColon([tok] + rest) == RenderColon([tok]) + RenderColon(rest)
  {
    assert ([tok] + rest)[1..] == rest;
  }

  /** Compiling loses nothing: writing the tokens back gives the template. */
  lemma {:induction false} CompileColonRoundTrip(t: string)
    ensures RenderColon(CompileColon(t)) == t
    decreases |t|, 1
  {
    if t == [] {
    } else if t[0] == ':' && WordRun(t[1..]) > 0 {
      ParamRoundTrip(t);
    } else {
      CompileColonRoundTrip(t[1..]);
      RenderColonCons(Lit(t[0]), CompileColon(t[1..]));
      assert t == [t[0]] + t[1..];
    }
  }

  lemma {:induction false} ParamRoundTrip(t: string)
    requires t != [] && t[0] == ':' && WordRun(t[1..]) > 0
    ensures RenderColon(CompileColon(t)) == t
    decreases |t|, 0
  {
    var n := WordRun(t[1..]);
    var u := t[n + 1..];
    ColonParamSplit(t);
    CompileColonRoundTrip(u);
    RenderColonCons(Param(t[1..n + 1]), CompileColon(u));
  }

  /** A template starting with a placeholder: its compiled head, and the text it came from. */
  lemma ColonParamSplit(t: string)
    requires t != [] && t[0] == ':' && WordRun(t[1..]) > 0
    ensures var n := WordRun(t[1..]);
      CompileColon(t) == [Param(t[1..n + 1])] + CompileColon(t[n + 1..])
      && RenderColon([Param(t[1..n + 1])]) + t[n + 1..] == t
  {
    var n := WordRun(t[1..]);
    RenderParamThen(t, n + 1);
  }

  /** `:` followed by `t[1..k]` and then `t[k..]` writes `t` back. */
  lemma RenderParamThen(t: string, k: nat)
    requires 0 < k <= |t| && t[0] == ':'
    ensures RenderColon([Param(t[1..k])]) + t[k..] == t
  {
    var name := t[1..k];
    assert RenderColon([Param(name)]) == ":" + name + RenderColon([]);
    assert t == [t[0]] + name + t[k..];
  }

  /** No placeholder is directly followed by a literal word character. */
  ghost predicate NoWordAfterParam(toks: seq<Token>) {
    forall i :: 0 <= i < |toks| - 1 && toks[i].Param? && toks[i + 1].Lit? ==> !IsWordChar(toks[i + 1].c)
  }

  lemma ConsShape(tok: Token, rest: seq<Token>)
    requires WellNamed(rest) && NoWordAfterParam(rest)
    requires tok.Param? ==> tok.name != [] && IsWord(tok.name)
    requires tok.Param? && rest != [] && rest[0].Lit? ==> !IsWordChar(rest[0].c)
    ensures WellNamed([tok] + rest) && NoWordAfterParam([tok] + rest)
  {
    var toks := [tok] + rest;
    assert forall i :: 1 <= i < |toks| ==> toks[i] == rest[i - 1];
  }

  /**
   * Placeholder names are non-empty word runs, and a placeholder is never followed by
   * a literal word character (the name took the whole run).
   */
  lemma {:induction false} CompileColonShape(t: string)
    ensures WellNamed(CompileColon(t)) && NoWordAfterParam(CompileColon(t))
    decreases |t|
  {
    if t == [] {
    } else if t[0] == ':' && WordRun(t[1..]) > 0 {
      var n := WordRun(t[1..]);
      var u := t[n + 1..];
      CompileColonShape(u);
      assert t[1..n + 1] == t[1..][..n];
      if u != [] {
        assert u[0] == t[1..][n];
        assert CompileColon(u)[0].Lit? ==> CompileColon(u)[0].c == u[0];
      }
      ConsShape(Param(t[1..n + 1]), CompileColon(u));
    } else {
      CompileColonShape(t[1..]);
      ConsShape(Lit(t[0]), CompileColon(t[1..]));
    }
  }

  /** A literal `:` is never followed by a literal word character: every `:name` became a placeholder. */
  ghost predicate NoLiteralColonName(toks: seq<Token>) {
    forall i :: 0 <= i < |toks| - 1 && toks[i] == Lit(':') ==> !(toks[i + 1].Lit? && IsWordChar(toks[i + 1].c))
  }

  lemma NoLiteralColonNameCons(tok: Token, rest: seq<Token>)
    requires NoLiteralColonName(rest)
    requires tok == Lit(':') && rest != [] && rest[0].Lit? ==> !IsWordChar(rest[0].c)
    ensures NoLiteralColonName([tok] + rest)
  {
    var toks := [tok] + rest;
    assert forall i :: 1 <= i < |toks| ==> toks[i] == rest[i - 1];
  }

  /** Compilation leaves no `:name` behind: a colon stays literal only before a non-word character or the end. */
  lemma {:induction false} CompileColonNamesAll(t: string)
    ensures NoLiteralColonName(CompileColon(t))
    decreases |t|
  {
    if t == [] {
    } else if t[0] == ':' && WordRun(t[1..]) > 0 {
      var n := WordRun(t[1..]);
      CompileColonNamesAll(t[n + 1..]);
      NoLiteralColonNameCons(Param(t[1..n + 1]), CompileColon(t[n + 1..]));
    } else {
      var u := t[1..];
      CompileColonNamesAll(u);
      if u != [] {
        assert CompileColon(u)[0].Lit? ==> CompileColon(u)[0].c == u[0];
      }
      NoLiteralColonNameCons(Lit(t[0]), CompileColon(u));
    }
  }

  // ---------------------------------------------------------------------------
  // Compilation of `<name>` templates (Route.php)
  // ---------------------------------------------------------------------------

  /** True when `t` starts with `<`, a non-empty word run and `>`. */
  predicate AngleAt(t: string) {
    t != [] && t[0] == '<' && 0 < WordRun(t[1..]) && WordRun(t[1..]) + 1 < |t| && t[WordRun(t[1..]) + 1] == '>'
  }

  /** Replaces every `<name>` by a placeholder; every other character stays literal. */
  function CompileAngle(t: string): seq<Token>
    decreases |t|
  {
    if t == [] then []
    else if AngleAt(t) then
      var n := WordRun(t[1..]);
      [Param(t[1..n + 1])] + CompileAngle(t[n + 2..])
    else
      [Lit(t[0])] + CompileAngle(t[1..])
  }

  /** Writes a token sequence back in `<name>` syntax. */
  function RenderAngle(toks: seq<Token>): string {
    if toks == [] then ""
    else (match toks[0] case Lit(c) => [c] case Param(name) => "<" + name + ">") + RenderAngle(toks[1..])
  }

  lemma RenderAngleCons(tok: Token, rest: seq<Token>)
    ensures RenderAngle([tok] + rest) == RenderAngle([tok]) + RenderAngle(rest)
  {
    assert ([tok] + rest)[1..] == rest;
  }

  /** A `<name>` at the start of a template is the placeholder written back, then the rest. */
  lemma AngleAtSplit(t: string)
    requires AngleAt(t)
    ensures var n := WordRun(t[1..]);
      t == RenderAngle([Param(t[1..n + 1])]) + t[n + 2..]
  {
    var n := WordRun(t[1..]);
    var name := t[1..n + 1];
    assert RenderAngle([Param(name)]) == "<" + name + ">" + RenderAngle([]);
    assert t[..n + 2] == [t[0]] + name + [t[n + 1]];
    assert t == t[..n + 2] + t[n + 2..];
  }

  /** Compiling loses nothing: writing the tokens back gives the template. */
  lemma {:induction false} CompileAngleRoundTrip(t: string)
    ensures RenderAngle(CompileAngle(t)) == t
    decreases |t|
  {
    if t == [] {
    } else if AngleAt(t) {
      var n := WordRun(t[1..]);
      var name := t[1..n + 1];
      var u := t[n + 2..];
      assert CompileAngle(t) == [Param(name)] + CompileAngle(u);
      CompileAngleRoundTrip(u);
      RenderAngleCons(Param(name), CompileAngle(u));
      AngleAtSplit(t);
    } else {
      CompileAngleRoundTrip(t[1..]);
      RenderAngleCons(Lit(t[0]), CompileAngle(t[1..]));
      assert t == [t[0]] + t[1..];
    }
  }

  /** Placeholder names of a `<name>` template are non-empty word runs. */
  lemma {:induction false} CompileAngleWellNamed(t: string)
    ensures WellNamed(CompileAngle(t))
    decreases |t|
  {
    if t == [] {
    } else if AngleAt(t) {
      var n := WordRun(t[1..]);
      CompileAngleWellNamed(t[n + 2..]);
      assert t[1..n + 1] == t[1..][..n];
      WellNamedCons(Param(t[1..n + 1]), CompileAngle(t[n + 2..]));
    } else {
      CompileAngleWellNamed(t[1..]);
      WellNamedCons(Lit(t[0]), CompileAngle(t[1..]));
    }
  }

  /** A token in front of well-named tokens keeps them well named if it is itself. */
  lemma WellNamedCons(tok: Token, rest: seq<Token>)
    requires WellNamed(rest) && (tok.Param? ==> tok.name != [] && IsWord(tok.name))
    ensures WellNamed([tok] + rest)
  {
    var toks := [tok] + rest;
    assert forall i :: 1 <= i < |toks| ==> toks[i] == rest[i - 1];
  }

  /** The number of literal word characters at the start of a token sequence. */
  function LitWordRun(toks: seq<Token>): (n: nat)
    ensures n <= |toks|
  {
    if toks == [] || !(toks[0].Lit? && IsWordChar(toks[0].c)) then 0 else 1 + LitWordRun(toks[1..])
  }

  /** The literal word characters after position `i`, if any, are not closed by a literal `>`. */
  predicate UnclosedAt(toks: seq<Token>, i: nat)
    requires i < |toks|
  {
    var n := LitWordRun(toks[i + 1..]);
    n == 0 || i + 1 + n == |toks| || toks[i + 1 + n] != Lit('>')
  }

  /** No literal `<`, word characters and `>` in a row: every `<name>` became a placeholder. */
  ghost predicate NoLiteralAngle(toks: seq<Token>) {
    forall i :: 0 <= i < |toks| && toks[i] == Lit('<') ==> UnclosedAt(toks, i)
  }

  /**
   * The word run at the start of a template compiles to as many literal word
   * characters, followed by a literal `>` exactly when the template has `>` there.
   */
  lemma {:induction false} AngleLitRun(u: string)
    ensures var toks := CompileAngle(u);
      var m := WordRun(u);
      LitWordRun(toks) == m && m <= |toks|
      && (m == |u| ==> |toks| == m)
      && (m < |u| ==> m < |toks| && (toks[m] == Lit('>') <==> u[m] == '>'))
    decreases |u|
  {
    if u != [] && IsWordChar(u[0]) {
      assert !AngleAt(u);
      assert CompileAngle(u) == [Lit(u[0])] + CompileAngle(u[1..]);
      AngleLitRun(u[1..]);
      assert ([Lit(u[0])] + CompileAngle(u[1..]))[1..] == CompileAngle(u[1..]);
    }
  }

  lemma NoLiteralAngleCons(tok: Token, rest: seq<Token>)
    requires NoLiteralAngle(rest)
    requires tok == Lit('<') ==> UnclosedAt([tok] + rest, 0)
    ensures NoLiteralAngle([tok] + rest)
  {
    var toks := [tok] + rest;
    assert toks[1..] == rest;
    forall i | 1 <= i < |toks| && toks[i] == Lit('<')
      ensures UnclosedAt(toks, i)
    {
      assert toks[i] == rest[i - 1] && toks[i + 1..] == rest[i..];
      assert UnclosedAt(rest, i - 1);
    }
  }

  /** Compilation leaves no `<name>` behind as literal text. */
  lemma {:induction false} CompileAngleNamesAll(t: string)
    ensures NoLiteralAngle(CompileAngle(t))
    decreases |t|
  {
    if t == [] {
    } else if AngleAt(t) {
      var n := WordRun(t[1..]);
      CompileAngleNamesAll(t[n + 2..]);
      NoLiteralAngleCons(Param(t[1..n + 1]), CompileAngle(t[n + 2..]));
    } else {
      var u := t[1..];
      CompileAngleNamesAll(u);
      AngleLitRun(u);
      assert ([Lit(t[0])] + CompileAngle(u))[1..] == CompileAngle(u);
      NoLiteralAngleCons(Lit(t[0]), CompileAngle(u));
    }
  }

  // ---------------------------------------------------------------------------
  // Matching
  // ---------------------------------------------------------------------------

  /** ASCII lower-casing, as the `i` flag of a regular expression compares letters. */
  function Fold(c: char): char {
    if 'A' <= c <= 'Z' then (c as int + 32) as char else c
  }

  /** Character comparison, case-insensitive when `ci` holds. */
  predicate CharEq(a: char, b: char, ci: bool) {
    if ci then Fold(a) == Fold(b) else a == b
  }

  /** A character equal to a non-word character is not a word character, even ignoring case. */
  lemma CharEqKeepsNonWord(a: char, b: char, ci: bool)
    requires CharEq(a, b, ci) && !IsWordChar(a)
    ensures !IsWordChar(b)
  {
  }

  /**
   * The regular-expression match of a compiled template at the start of `s`, with
   * backtracking: a placeholder first tries the longest word run, then shorter ones.
   * With `whole` the match must reach the end of `s` (the `$` anchor); otherwise any
   * rest of `s` may follow. The result is the list of captured values.
   */
  function MatchFrom(toks: seq<Token>, s: string, ci: bool, whole: bool): Option<seq<string>>
    decreases |toks|, |s| + 1
  {
    if toks == [] then (if whole && s != [] then None else Some([]))
    else match toks[0]
      case Lit(c) =>
        if s != [] && CharEq(c, s[0], ci) then MatchFrom(toks[1..], s[1..], ci, whole) else None
      case Param(_) =>
        TryCaptures(toks[1..], s, WordRun(s), ci, whole)
  }

  /** Tries captures of `s[..n]`, `s[..n-1]`, ..., `s[..1]` for a placeholder followed by `rest`. */
  function TryCaptures(rest: seq<Token>, s: string, n: nat, ci: bool, whole: bool): Option<seq<string>>
    requires n <= |s|
    decreases |rest| + 1, n
  {
    if n == 0 then None
    else match MatchFrom(rest, s[n..], ci, whole)
      case Some(caps) => Some([s[..n]] + caps)
      case None => TryCaptures(rest, s, n - 1, ci, whole)
  }

  /**
   * `toks` with capture values `caps` spells `s` (with `whole`) or a prefix of `s`
   * (without): literals equal the characters of `s`, each capture is a non-empty word
   * run taken from `s` at the place of its placeholder.
   */
  ghost predicate Spells(toks: seq<Token>, caps: seq<string>, s: string, ci: bool, whole: bool)
    decreases |toks|
  {
    if toks == [] then caps == [] && (whole ==> s == [])
    else match toks[0]
      case Lit(c) =>
        s != [] && CharEq(c, s[0], ci) && Spells(toks[1..], caps, s[1..], ci, whole)
      case Param(_) =>
        caps != [] && 0 < |caps[0]| <= |s| && IsWord(caps[0]) && s[..|caps[0]|] == caps[0]
        && Spells(toks[1..], caps[1..], s[|caps[0]|..], ci, whole)
  }

  /** There is one capture per placeholder, each a non-empty word run. */
  lemma {:induction false} SpellsArity(toks: seq<Token>, caps: seq<string>, s: string, ci: bool, whole: bool)
    requires Spells(toks, caps, s, ci, whole)
    ensures |caps| == |Names(toks)|
    ensures forall i :: 0 <= i < |caps| ==> caps[i] != [] && IsWord(caps[i])
    decreases |toks|
  {
    if toks != [] {
      match toks[0]
      case Lit(c) =>
        SpellsArity(toks[1..], caps, s[1..], ci, whole);
      case Param(_) =>
        SpellsArity(toks[1..], caps[1..], s[|caps[0]|..], ci, whole);
        assert forall i :: 1 <= i < |caps| ==> caps[i] == caps[1..][i - 1];
    }
  }

  /** Soundness: a match found by the matcher spells the string. */
  lemma {:induction false} MatchSound(toks: seq<Token>, s: string, ci: bool, whole: bool)
    requires MatchFrom(toks, s, ci, whole).Some?
    ensures Spells(toks, MatchFrom(toks, s, ci, whole).value, s, ci, whole)
    decreases |toks|, |s| + 1
  {
    if toks != [] {
      match toks[0]
      case Lit(c) =>
        MatchSound(toks[1..], s[1..], ci, whole);
      case Param(_) =>
        TryCapturesSound(toks[1..], s, WordRun(s), ci, whole);
    }
  }

  lemma {:induction false} TryCapturesSound(rest: seq<Token>, s: string, n: nat, ci: bool, whole: bool)
    requires n <= |s| && IsWord(s[..n])
    requires TryCaptures(rest, s, n, ci, whole).Some?
    ensures var caps := TryCaptures(rest, s, n, ci, whole).value;
      caps != [] && 0 < |caps[0]| <= n && IsWord(caps[0]) && s[..|caps[0]|] == caps[0]
      && Spells(rest, caps[1..], s[|caps[0]|..], ci, whole)
    decreases |rest| + 1, n
  {
    match MatchFrom(rest, s[n..], ci, whole)
    case Some(tail) =>
      MatchSound(rest, s[n..], ci, whole);
      assert ([s[..n]] + tail)[1..] == tail;
    case None =>
      assert s[..n - 1] == s[..n][..n - 1];
      TryCapturesSound(rest, s, n - 1, ci, whole);
  }

  /** Completeness: whenever some captures spell the string, the matcher finds a match. */
  lemma {:induction false} MatchComplete(toks: seq<Token>, caps: seq<string>, s: string, ci: bool, whole: bool)
    requires Spells(toks, caps, s, ci, whole)
    ensures MatchFrom(toks, s, ci, whole).Some?
    decreases |toks|, |s| + 1
  {
    if toks != [] {
      match toks[0]
      case Lit(c) =>
        MatchComplete(toks[1..], caps, s[1..], ci, whole);
      case Param(_) =>
        var m := |caps[0]|;
        WordPrefixWithinRun(s, m);
        TryCapturesComplete(toks[1..], caps[1..], s, m, WordRun(s), ci, whole);
    }
  }

  lemma {:induction false} TryCapturesComplete(rest: seq<Token>, tail: seq<string>, s: string, m: nat, n: nat, ci: bool, whole: bool)
    requires 0 < m <= n <= |s|
    requires Spells(rest, tail, s[m..], ci, whole)
    ensures TryCaptures(rest, s, n, ci, whole).Some?
    decreases |rest| + 1, n
  {
    if MatchFrom(rest, s[n..], ci, whole).None? {
      if n == m {
        MatchComplete(rest, tail, s[m..], ci, whole);
      } else {
        TryCapturesComplete(rest, tail, s, m, n - 1, ci, whole);
      }
    }
  }

  /**
   * Uniqueness: when every placeholder is followed by the end or by a non-word literal,
   * the captures that spell the whole string are exactly the ones the matcher returns.
   */
  lemma {:induction false} MatchUnique(toks: seq<Token>, caps: seq<string>, s: string, ci: bool)
    requires Separated(toks)
    requires Spells(toks, caps, s, ci, true)
    ensures MatchFrom(toks, s, ci, true) == Some(caps)
    decreases |toks|
  {
    if toks != [] {
      assert Separated(toks[1..]) by {
        forall i | 0 <= i < |toks[1..]| && toks[1..][i].Param?
          ensures i + 1 == |toks[1..]| || (toks[1..][i + 1].Lit? && !IsWordChar(toks[1..][i + 1].c))
        {
          assert toks[1..][i] == toks[i + 1];
        }
      }
      match toks[0]
      case Lit(c) =>
        MatchUnique(toks[1..], caps, s[1..], ci);
      case Param(_) =>
        var m := |caps[0]|;
        WordPrefixWithinRun(s, m);
        if m < |s| {
          // the placeholder is followed by a non-word literal, which s[m] equals
          assert toks[1..] != [];
          assert toks[1].Lit? && !IsWordChar(toks[1].c);
          assert s[m..][0] == s[m];
          CharEqKeepsNonWord(toks[1].c, s[m], ci);
        }
        assert WordRun(s) == m;
        MatchUnique(toks[1..], caps[1..], s[m..], ci);
        assert [s[..m]] + caps[1..] == caps;
    }
  }

  // ---------------------------------------------------------------------------
  // Unanchored, case-insensitive search (Router::isUrlMatch)
  // ---------------------------------------------------------------------------

  /** The template matches somewhere in `s[i..]`, trying start positions left to right. */
  function OccursFrom(toks: seq<Token>, s: string, i: nat): bool
    requires i <= |s|
    decreases |s| - i
  {
    MatchFrom(toks, s[i..], true, false).Some? || (i < |s| && OccursFrom(toks, s, i + 1))
  }

  /** The search of `#template#i` in `s`: a match may start and end anywhere. */
  function UrlMatch(toks: seq<Token>, s: string): bool {
    OccursFrom(toks, s, 0)
  }

  lemma {:induction false} OccursFromWitness(toks: seq<Token>, s: string, i: nat) returns (j: nat)
    requires i <= |s| && OccursFrom(toks, s, i)
    ensures i <= j <= |s| && MatchFrom(toks, s[j..], true, false).Some?
    decreases |s| - i
  {
    if MatchFrom(toks, s[i..], true, false).Some? {
      j := i;
    } else {
      j := OccursFromWitness(toks, s, i + 1);
    }
  }

  lemma {:induction false} OccursFromAt(toks: seq<Token>, s: string, i: nat, j: nat)
    requires i <= j <= |s| && MatchFrom(toks, s[j..], true, false).Some?
    ensures OccursFrom(toks, s, i)
    decreases j - i
  {
    if i < j {
      OccursFromAt(toks, s, i + 1, j);
    }
  }

  /**
   * A successful search has a witness: a start position and captures with which the
   * template spells a piece of `s` there, ignoring ASCII case.
   */
  lemma UrlMatchSound(toks: seq<Token>, s: string) returns (j: nat, caps: seq<string>)
    requires UrlMatch(toks, s)
    ensures j <= |s| && Spells(toks, caps, s[j..], true, false)
  {
    j := OccursFromWitness(toks, s, 0);
    caps := MatchFrom(toks, s[j..], true, false).value;
    MatchSound(toks, s[j..], true, false);
  }

  /** Conversely, any such piece of `s` makes the search succeed. */
  lemma UrlMatchComplete(toks: seq<Token>, s: string, j: nat, caps: seq<string>)
    requires j <= |s| && Spells(toks, caps, s[j..], true, false)
    ensures UrlMatch(toks, s)
  {
    MatchComplete(toks, caps, s[j..], true, false);
    OccursFromAt(toks, s, 0, j);
  }

  // ---------------------------------------------------------------------------
  // Request path and parameter binding
  // ---------------------------------------------------------------------------

  /** The request path: the text of the URI before its first `?`. */
  function PathOf(uri: string): (p: string)
    ensures '?' !in p
    ensures p <= uri
    ensures |p| < |uri| ==> uri[|p|] == '?'
  {
    if uri == [] || uri[0] == '?' then [] else [uri[0]] + PathOf(uri[1..])
  }

  /**
   * Pairs names with captured values, left to right, as `array_combine` does: a name
   * that occurs twice keeps its last value.
   */
  function Bind(names: seq<string>, caps: seq<string>): (m: map<string, string>)
    requires |names| == |caps|
    ensures forall n :: n in m <==> n in names
    decreases |names|
  {
    if names == [] then map[]
    else
      var k := |names| - 1;
      assert names == names[..k] + [names[k]];
      Bind(names[..k], caps[..k])[names[k] := caps[k]]
  }

  /** The value bound to a name is the capture at its last occurrence. */
  lemma {:induction false} BindLastWins(names: seq<string>, caps: seq<string>, i: nat)
    requires |names| == |caps| && i < |names|
    requires names[i] !in names[i + 1..]
    ensures Bind(names, caps)[names[i]] == caps[i]
    decreases |names|
  {
    var k := |names| - 1;
    if i < k {
      assert names[..k][i + 1..] == names[i + 1..k];
      assert names[k] in names[i + 1..];
      BindLastWins(names[..k], caps[..k], i);
    }
  }

  // ---------------------------------------------------------------------------
  // Templates written out: literal text and placeholders
  // ---------------------------------------------------------------------------

  /** The template that matches exactly the text `t`. */
  function Lits(t: string): seq<Token> {
    if t == [] then [] else [Lit(t[0])] + Lits(t[1..])
  }

  /** A word run followed by the end or a non-word character is the longest one. */
  lemma {:induction false} WordRunIs(s: string, n: nat)
    requires n <= |s| && IsWord(s[..n]) && (n < |s| ==> !IsWordChar(s[n]))
    ensures WordRun(s) == n
    decreases n
  {
    if n > 0 {
      assert s[..n][0] == s[0];
      assert s[1..][..n - 1] == s[..n][1..];
      assert n - 1 < |s[1..]| ==> s[1..][n - 1] == s[n];
      WordRunIs(s[1..], n - 1);
    }
  }

  /** Text without a colon compiles to itself, whatever follows it. */
  lemma {:induction false} CompileColonLiteralPrefix(a: string, b: string)
    requires ':' !in a
    ensures CompileColon(a + b) == Lits(a) + CompileColon(b)
    decreases |a|
  {
    if a == [] {
      assert a + b == b;
    } else {
      assert (a + b)[0] == a[0] && (a + b)[1..] == a[1..] + b;
      CompileColonLiteralPrefix(a[1..], b);
    }
  }

  /** No `:` in `t` is followed by a word character, so no `:name` occurs in it. */
  predicate NoColonName(t: string) {
    forall i :: 0 <= i < |t| - 1 && t[i] == ':' ==> !IsWordChar(t[i + 1])
  }

  /** Text in which no `:` starts a name compiles to its literal characters. */
  lemma {:induction false} CompileColonNoName(t: string)
    requires NoColonName(t)
    ensures CompileColon(t) == Lits(t)
    decreases |t|
  {
    if t != [] {
      if t[0] == ':' && |t| > 1 {
        assert !IsWordChar(t[1..][0]);
      }
      assert WordRun(t[1..]) > 0 ==> IsWordChar(t[1..][0]);
      assert forall i :: 0 <= i < |t[1..]| ==> t[1..][i] == t[i + 1];
      CompileColonNoName(t[1..]);
    }
  }

  /** `:name` followed by a non-word character (or nothing) compiles to one placeholder. */
  lemma CompileColonPlaceholder(name: string, rest: string)
    requires name != [] && IsWord(name) && (rest != [] ==> !IsWordChar(rest[0]))
    ensures CompileColon(":" + name + rest) == [Param(name)] + CompileColon(rest)
  {
    var t := ":" + name + rest;
    assert t[1..] == name + rest && (name + rest)[..|name|] == name;
    WordRunIs(name + rest, |name|);
    assert t[1..|name| + 1] == name && t[|name| + 1..] == rest;
  }

  /** Text without `<` compiles to itself, whatever follows it. */
  lemma {:induction false} CompileAngleLiteralPrefix(a: string, b: string)
    requires '<' !in a
    ensures CompileAngle(a + b) == Lits(a) + CompileAngle(b)
    decreases |a|
  {
    if a == [] {
      assert a + b == b;
    } else {
      assert (a + b)[0] == a[0] && (a + b)[1..] == a[1..] + b;
      CompileAngleLiteralPrefix(a[1..], b);
    }
  }

  /** `<name>` compiles to one placeholder. */
  lemma CompileAnglePlaceholder(name: string, rest: string)
    requires name != [] && IsWord(name)
    ensures CompileAngle("<" + name + ">" + rest) == [Param(name)] + CompileAngle(rest)
  {
    var t := "<" + name + ">" + rest;
    var s := name + ">" + rest;
    var n := |name|;
    assert t == ['<'] + s && t[1..] == s;
    assert s[..n] == name && s[n] == '>';
    WordRunIs(s, n);
    assert t[n + 1] == '>';
    assert AngleAt(t);
    assert t[1..n + 1] == name;
    assert t[n + 2..] == rest;
  }

  lemma {:induction false} NamesLits(p: string, rest: seq<Token>)
    ensures Names(Lits(p) + rest) == Names(rest)
    decreases |p|
  {
    if p == [] {
      assert Lits(p) + rest == rest;
    } else {
      assert (Lits(p) + rest)[1..] == Lits(p[1..]) + rest;
      NamesLits(p[1..], rest);
    }
  }

  /**
   * Literal text matches itself and then the rest of the template is matched; in a
   * case-sensitive match, any other text fails.
   */
  lemma {:induction false} MatchLitsPrefix(p: string, rest: seq<Token>, s: string, ci: bool, whole: bool)
    requires |p| <= |s| && s[..|p|] == p
    ensures MatchFrom(Lits(p) + rest, s, ci, whole) == MatchFrom(rest, s[|p|..], ci, whole)
    decreases |p|
  {
    if p == [] {
      assert Lits(p) + rest == rest && s[0..] == s;
    } else {
      LitsCons(p, rest);
      assert s[0] == p[0] && CharEq(p[0], s[0], ci);
      MatchLitStep(p[0], Lits(p[1..]) + rest, s, ci, whole);
      assert s[1..][..|p| - 1] == p[1..];
      MatchLitsPrefix(p[1..], rest, s[1..], ci, whole);
      assert s[1..][|p| - 1..] == s[|p|..];
    }
  }

  /** Case-sensitively, literal text that `s` does not start with rejects `s`. */
  lemma {:induction false} MatchLitsMismatch(p: string, rest: seq<Token>, s: string, whole: bool)
    requires !(p <= s)
    ensures MatchFrom(Lits(p) + rest, s, false, whole) == None
    decreases |p|
  {
    LitsCons(p, rest);
    MatchLitStep(p[0], Lits(p[1..]) + rest, s, false, whole);
    if s != [] && s[0] == p[0] {
      assert !(p[1..] <= s[1..]);
      MatchLitsMismatch(p[1..], rest, s[1..], whole);
    }
  }

  /** `Lits` of a non-empty text starts with the literal of its first character. */
  lemma LitsCons(p: string, rest: seq<Token>)
    requires p != []
    ensures Lits(p) + rest == [Lit(p[0])] + (Lits(p[1..]) + rest)
  {
  }

  /** A leading literal consumes one equal character. */
  lemma MatchLitStep(c: char, toks: seq<Token>, s: string, ci: bool, whole: bool)
    ensures MatchFrom([Lit(c)] + toks, s, ci, whole)
      == if s != [] && CharEq(c, s[0], ci) then MatchFrom(toks, s[1..], ci, whole) else None
  {
    assert ([Lit(c)] + toks)[0] == Lit(c);
    assert ([Lit(c)] + toks)[1..] == toks;
  }

  /** A template of literal text only matches, anchored and case-sensitively, that text alone. */
  lemma MatchLitsExact(p: string, s: string)
    ensures MatchFrom(Lits(p), s, false, true) == if s == p then Some([]) else None
  {
    assert Lits(p) + [] == Lits(p);
    if p <= s {
      MatchLitsPrefix(p, [], s, false, true);
      assert s == s[..|p|] + s[|p|..];
    } else {
      MatchLitsMismatch(p, [], s, true);
    }
  }

  /** A final placeholder captures the whole remaining word. */
  lemma MatchLastParam(name: string, s: string)
    requires s != [] && IsWord(s)
    ensures MatchFrom([Param(name)], s, false, true) == Some([s])
  {
    assert s[..|s|] == s;
    WordRunIs(s, |s|);
    assert [Param(name)][1..] == [];
    assert s[|s|..] == [];
    assert MatchFrom([], s[|s|..], false, true) == Some([]);
    assert [s[..|s|]] + [] == [s];
    assert TryCaptures([], s, |s|, false, true) == Some([s]);
  }

  /** The path of a URI with a query string is the text before the `?`. */
  lemma {:induction false} PathOfQuery(a: string, b: string)
    requires '?' !in a
    ensures PathOf(a + "?" + b) == a
  {
    if a != [] {
      assert (a + "?" + b)[1..] == a[1..] + "?" + b;
      PathOfQuery(a[1..], b);
    }
  }

  /** A URI without `?` is its own path. */
  lemma PathOfPlain(a: string)
    requires '?' !in a
    ensures PathOf(a) == a
  {
  }
}
